=== FILE: README.md ===
# LR stack automaton and grammar analyses of a Python-subset compiler

This project is a Dafny model of two pieces of a small compiler for a Python subset.

**1. The table-driven LR(1) parser of `lr_parser.py`.** This is a deterministic pushdown automaton.
- **Stack.** It mixes states and grammar symbols, starting from `[0]`.
- **Input.** Tokens are read through a cursor, after NEWLINE and EOF tokens are removed and one `$` end marker is appended.
- **Loop.** Each iteration looks the pair (top state, current terminal) up in a hand-built ACTION table, then does one of:
  - shift: push the terminal and the target state, advance the cursor;
  - reduce: pop two cells per right-hand-side symbol, look GOTO up from the exposed state, push the left-hand side and the GOTO state;
  - accept;
  - reject: on an ERROR entry, or on a missing ACTION or GOTO entry.
- **Trace.** Every decision is appended to a trace.

The ACTION and GOTO tables, the 22 productions and the token-to-terminal classifier are modelled with exactly the source's entries.

**2. The grammar analyses of `formal_properties.py`.**
- **The grammar.** G = (N, Σ, P, S) of the language: 16 nonterminals, 33 terminals and 36 productions.
- **Classification.** Its Chomsky classification.
- **Property tables.** The closure and decidability tables reported per language type.
- **Emptiness test.** A fixpoint of "generating" symbols.
- **Finiteness test.** A depth-first search for recursion.

## Files
- `Wrappers.dfy`: `Option`.
- `Tokens.dfy`:
  - token kinds and tokens;
  - the classifier `_get_terminal_symbol`;
  - input preparation `_prepare_input` plus the end marker.
- `LrAction.dfy`: the `LRAction` variant and its `__str__` text (`s5`, `r3`, `acc`, `err`), with a parser back for the round trip.
- `LrTables.dfy`: productions, tables, the hand-built constants and their integrity facts.
- `LrParser.dfy`:
  - the stack of `St(state)` / `Sym(symbol)` cells;
  - configurations and trace records;
  - one loop iteration `Step`;
  - the fuel-bounded loop `Run`;
  - `Parse`.
- `LrSafety.dfy`: generic facts about any tables:
  - per-action step behaviour;
  - trace framing;
  - no cursor overrun;
  - no unknown production;
  - no reduce underflow under a depth bound.
- `LrConcrete.dfy`: the automaton on the hand-built tables:
  - no underflow;
  - every input rejected;
  - the run on `x = 5`.
- `Grammars.dfy`:
  - the grammar, classification, closure and decidability tables;
  - the concrete grammar is type 2.
- `Emptiness.dfy`: the generating-symbols fixpoint; emptiness iff S derives no terminal string.
- `Finiteness.dfy`: the recursion search; finite iff no walk from S repeats a nonterminal.

## Modelling decisions
- **Outcomes.** `parse` returns True only through `Accepted`. False is split by reason:
  - `Rejected(ActionMiss(state, terminal))`;
  - `Rejected(GotoMiss(state, lhs))`;
  - `Rejected(ErrorAction(state))`.

  `Verdict` maps them back to the boolean.
- **Python exceptions.**
  - `Raised(CursorPastEnd)` models an `IndexError` from reading past the buffer (`lr_parser.py:208`).
  - `Raised(NoSuchProduction)` models one from indexing the production list (`lr_parser.py:232`).
- **Fuel.** `Run` takes a fuel bound, because the loop has no termination argument for arbitrary tables: a cycle of reduces never moves the cursor. The `OutOfFuel` outcome is the model's own.
- **Trace.** Trace messages become tagged records:
  - `StepRec(state, terminal, action, stack before)`;
  - `ActionMissRec`, `GotoMissRec`, `ReduceRec`, `AcceptedRec`, `ErrorActionRec`.
- **States.** States and production numbers are `nat`, as every table entry is.
- **Right-hand sides.** A grammar right-hand side is its list of space-separated tokens, with the empty list standing for ε. Its character length, used by the context-sensitivity test, is the length of the tokens joined by single spaces.
- **N and Σ.** They are kept as independent sets. `print`, `if`, `while` and `for` lie in both, so they count as terminals in the emptiness test and as nonterminals in the recursion search.

## Behaviour of the code worth knowing
- **Reduce underflow.** A reduce that pops every cell or more does not fail.
  - Pops stop at an empty stack, and GOTO is then consulted from state 0 (`lr_parser.py:235-240`). `LrParser.Step` models this branch, and `LrSafety.ReduceUnderflowStep` states what it does.
  - The model proves that no underflow happens when the tables respect a depth bound. It also proves that the hand-built tables respect one.
- **Missing GOTO.** `parse` returns False exactly as for a missing ACTION entry (`lr_parser.py:243-246`). Only the trace tells the two apart.
- **Termination.** The `while True` loop has no bound of its own, so for arbitrary tables it may not end. The model therefore bounds it by fuel.
- **The hand-built tables are partial.**
  - State 0 can shift at most twice before a missing ACTION entry, so every input is rejected within three iterations (`LrConcrete.HandBuiltRejectsEverything`).
  - `x = 5` stops at state 10 on `NUMBER`.
- **Emptiness.** `print` lies in both N and Σ, and the emptiness test counts it as a terminal. So program ⇒ stmt_list ⇒ stmt ⇒ print already shows that the start symbol is generating.

## Model
| member | source | states |
|---|---|---|
| Tokens.TerminalOf | lr_parser.py:268-305 | Each listed token kind maps to its fixed terminal name whatever its payload. Any other kind maps to its value when non-empty, otherwise to its kind name. |
| Tokens.ListedTerminalsShape | lr_parser.py:268-305 | Only NEWLINE and unlisted kinds reach the fallback branch. Distinct listed kinds get distinct terminal names. |
| Tokens.PayloadIgnoredForListedKinds | lr_parser.py:270-303 | Two tokens of the same listed kind classify alike. IDENTIFIER gives "ID" and EOF gives "$". |
| Tokens.DropLayout | lr_parser.py:264-266 | The filtered list keeps no NEWLINE or EOF, keeps every other token, and adds nothing. |
| Tokens.DropLayoutAppend | lr_parser.py:266 | Filtering distributes over concatenation, so order is preserved. |
| Tokens.DropLayoutIdentity | lr_parser.py:266 | Filtering a list without layout tokens changes nothing, and filtering twice is filtering once. |
| Tokens.PrepareInput | lr_parser.py:198-202 | The buffer ends with exactly one EOF token, which classifies as "$". Every earlier cell is a non-layout token of the input, and every non-layout input token is in the buffer. |
| Tokens.KindName | lr_parser.py:305 | The fallback name of a lexer kind is a non-empty upper-case word; an unnamed kind keeps its own name. |
| Tokens.KindNameInjective | lr_parser.py:305 | Distinct kinds of the lexer have distinct fallback names. |
| LrAction.NatText | lr_parser.py:29-31 | A state or production number is rendered as a non-empty digit string without leading zeros. |
| LrAction.NatTextRoundTrip | lr_parser.py:29-31 | Reading the digits back gives the number. |
| LrAction.ActionText | lr_parser.py:27-35 | The text starts with 's' exactly for a shift and with 'r' exactly for a reduce, followed by digits. |
| LrAction.ActionTextRoundTrip | lr_parser.py:27-35 | Parsing the rendered text gives back the action. |
| LrAction.ActionTextInjective | lr_parser.py:27-35 | Distinct actions render differently. |
| LrTables.HandBuiltIdsAreIndices | lr_parser.py:68-116 | There are 22 productions, and each one's id is its list index, so the reduce operand selects that production. |
| LrTables.HandBuiltActionKeys | lr_parser.py:126-157 | Every ACTION key is one of the 16 keys written in the table. |
| LrTables.HandBuiltActionStates | lr_parser.py:128-152 | Only states 0, 1, 2, 3, 5 and 6 have ACTION entries. |
| LrTables.HandBuiltState0Entries | lr_parser.py:129-133 | State 0 only shifts, into states 5 to 9, never on "$". |
| LrTables.HandBuiltState3Entries | lr_parser.py:142-148 | State 3 shifts into states 5 to 9, or reduces by production 3 on "$" or DEDENT. |
| LrTables.HandBuiltOtherEntries | lr_parser.py:136-152 | The remaining entries are accept at (1,"$"), reduce 1 at (2,"$"), shift 10 at (5,"=") and shift 11 at (6,"("). |
| LrTables.HandBuiltGotoKeys | lr_parser.py:165-184 | Every GOTO key is one of the 10 keys written in the table. |
| LrTables.HandBuiltGotoValues | lr_parser.py:168-179 | The GOTO entries have the source's target states. |
| LrTables.HandBuiltActionIntegrity | lr_parser.py:126-157 | Every reduce names an existing production, no shift is on "$", and the only ACCEPT entry is at (1,"$"). |
| LrParser.PopUpTo | lr_parser.py:235-237 | Popping n cells one by one, skipping pops on an empty stack, leaves a prefix whose length is the old length minus n, or zero. |
| LrParser.ExposedState | lr_parser.py:234-240 | After popping k symbol/state pairs, the GOTO lookup starts from the state cell 2k below the old top, or from 0 when the stack had no more than 2k cells. |
| LrParser.PushPairKeepsAlternating | lr_parser.py:226-227 | Pushing a symbol then a state leaves a state on top, with states and symbols alternating. |
| LrParser.Step | lr_parser.py:206-262 | On continuing, the stack alternates and the trace strictly grows. The cursor advances by one, or stays while exactly two records are added. On halting, the cursor is unchanged and the trace's last records report the outcome. |
| LrParser.Run | lr_parser.py:206-262 | The trace only grows, the cursor never moves back or past the buffer, and the trace ends with a report of the outcome. |
| LrParser.Parse | lr_parser.py:186-262 | Starting from the stack [0] and an empty trace, the final trace reports the outcome and the cursor stays within the prepared buffer. |
| LrSafety.ShiftStep | lr_parser.py:219-228 | A shift pushes exactly the terminal and the target state and advances the cursor by one. It logs one record holding the stack as it was before. The odd-length shape is kept. |
| LrSafety.ReduceStep | lr_parser.py:219-252 | On a stack of at least 2k+1 cells, a k-symbol reduce removes exactly 2k cells and pushes lhs and the GOTO state, leaving the cursor alone. It logs the decision with the old stack, then the reduction. On a GOTO miss it halts with the popped stack after the decision and the miss record. The height changes by 2−2k. |
| LrSafety.ReduceUnderflowStep | lr_parser.py:230-252 | A reduce popping every cell or more empties the stack and consults GOTO from state 0. The cursor stays, and the trace gains the decision followed by the reduction, or by the GOTO miss that rejects. |
| LrSafety.ActionMissStep | lr_parser.py:212-217 | A missing ACTION entry rejects with that state and terminal, keeps stack and cursor, and adds exactly one record. |
| LrSafety.ErrorActionStep | lr_parser.py:259-262 | An ERROR entry rejects after logging the decision and the error. |
| LrSafety.AcceptStepIff | lr_parser.py:219-257 | A step accepts if and only if the consulted entry is ACCEPT. It then keeps stack and cursor and logs the decision with the stack, followed by the acceptance record. |
| LrSafety.CursorPastEndStep | lr_parser.py:207-209 | Reading the buffer fails if and only if the cursor is past its end, and then the configuration is returned untouched. |
| LrSafety.RunFuelMonotone | lr_parser.py:206-262 | Once the loop halts, more iterations change nothing. |
| LrSafety.StepTraceFrame | lr_parser.py:307-309 | A step only appends to the trace. Its result from a longer trace is its result from an empty one with the old trace in front. |
| LrSafety.RunTraceFrame | lr_parser.py:199 | The same holds for whole runs, so clearing the trace at the start loses nothing. |
| LrSafety.NoCursorOverrun | lr_parser.py:202-208 | If no table entry shifts on "$" and the buffer ends with "$", no run raises the cursor-past-end fault and the cursor never leaves the buffer. |
| LrSafety.NoUnknownProduction | lr_parser.py:230-232 | If every reduce names an existing production, no lookup of the production list fails. |
| LrSafety.StepAcceptRecorded | lr_parser.py:206-262 | A step that does not accept never leaves the acceptance record last, and a halting step accepts iff it leaves it last. |
| LrSafety.RunVerdictIffAcceptRecorded | lr_parser.py:206-262 | From a trace not ending in acceptance, the run returns True iff its last trace record is the acceptance record. |
| LrSafety.ParseVerdictIffAcceptRecorded | lr_parser.py:199-262 | `parse` returns True exactly when its trace ends with the acceptance record. |
| LrSafety.ParseVerdict | lr_parser.py:214-262 | The boolean `parse` returns is True exactly when its trace ends with the acceptance record, and True only when the outcome is acceptance. |
| LrSafety.PushKeepsDepthInv | lr_parser.py:226-227 | A push respecting the depth bound keeps the depth invariant. |
| LrSafety.PopKeepsDepthInv | lr_parser.py:234-237 | A pop within the bound removes only existing cells and keeps the invariant. |
| LrSafety.StepKeepsDepthInv | lr_parser.py:224-252 | Under a depth-bounded table, a step never underflows and keeps the depth invariant. |
| LrSafety.ShiftKeepsDepthInv | lr_parser.py:224-228 | Under a depth-bounded table a shift keeps the depth invariant. |
| LrSafety.ReduceKeepsDepthInv | lr_parser.py:230-252 | Under a depth-bounded table a reduce does not underflow and keeps the depth invariant. |
| LrSafety.DepthBoundedNeverUnderflows | lr_parser.py:206-252 | Under a depth-bounded table, no run ever underflows. |
| LrSafety.InitialDepthInv | lr_parser.py:197 | The initial stack [0] satisfies the depth invariant. |
| LrConcrete.HandBuiltDepthBounded | lr_parser.py:118-184 | The hand-built tables respect a depth bound. |
| LrConcrete.HandBuiltNeverUnderflows | lr_parser.py:234-240 | No parse with the hand-built tables underflows, on any input. |
| LrConcrete.HandBuiltStep | lr_parser.py:206-228 | From a reachable state, a step either misses its ACTION entry or shifts a terminal other than "$" into a reachable state with fewer shifts left. |
| LrConcrete.HandBuiltRunRejects | lr_parser.py:206-228 | From a reachable state no run accepts. With more fuel than shifts left, a run stops on a missing ACTION entry. |
| LrConcrete.HandBuiltRejectsEverything | lr_parser.py:186-262 | The hand-built parser returns False on every token list, by an ACTION miss within three iterations, after at most two shifts. |
| LrConcrete.AssignKeptTokens | lr_parser.py:264-266 | Filtering the tokens of `x = 5` keeps the identifier, "=" and the number. |
| LrConcrete.AssignBuffer | lr_parser.py:198-202 | The prepared buffer of `x = 5` is those three tokens and the end marker. |
| LrConcrete.AssignShiftId | lr_parser.py:129 | State 0 shifts ID into state 5. |
| LrConcrete.AssignShiftEq | lr_parser.py:151 | State 5 shifts "=" into state 10. |
| LrConcrete.AssignMissNumber | lr_parser.py:212-217 | State 10 has no entry for NUMBER. |
| LrConcrete.AssignmentRun | lr_parser.py:206-217 | The run on `x = 5` shifts twice and then stops on the ACTION miss. |
| LrConcrete.AssignmentRejected | lr_parser.py:186-217 | `parse` on `x = 5` returns False by ActionMiss(10, "NUMBER"), with stack [0,"ID",5,"=",10] and the cursor on the number. |
| LrConcrete.ParseHaltsFor | lr_parser.py:186-262 | A parse that halted within some fuel returns the same result with more fuel. |
| Grammars.RegularFrom | formal_properties.py:166-188 | The right-linear scan answers False whichever rule it stops at. |
| Grammars.IsRegular | formal_properties.py:161-188 | No grammar is reported regular. |
| Grammars.ContextFreeFrom | formal_properties.py:195-201 | The scan from rule i holds iff every later left-hand side is in N and has no space. |
| Grammars.IsContextFree | formal_properties.py:190-201 | The test holds iff every left-hand side is a single nonterminal. |
| Grammars.RhsText | formal_properties.py:72-132 | A right-hand side written out has the characters of its tokens plus one space between each two, and ε is the empty string. |
| Grammars.Shrinks | formal_properties.py:215 | A rule shrinks iff its right-hand side is non-empty and its left-hand side has at least as many characters as the tokens plus the separating spaces plus one. For one token, iff the left-hand side is longer than it. |
| Grammars.NoShrinkingFrom | formal_properties.py:213-218 | The length scan holds iff no later rule has a longer left-hand side than its non-empty right-hand side. |
| Grammars.IsContextSensitive | formal_properties.py:203-218 | A context-free grammar passes. Any other grammar passes iff no rule shrinks. |
| Grammars.Classify | formal_properties.py:139-159 | The result is never type 3. It is type 2 iff context-free, type 1 iff not context-free and nothing shrinks, and type 0 iff not context-free and some rule shrinks. |
| Grammars.ClosureProperties | formal_properties.py:233-252 | For type 2, the six operations are all closed except intersection and complement. For type 3 all six are closed. Other types get an empty table. |
| Grammars.DecidabilityProperties | formal_properties.py:266-298 | For type 2, membership, emptiness and finiteness are decidable, and equivalence and ambiguity are not. For type 3 all five are decidable. Other types get an empty table. |
| Grammars.RegularTablesDominate | formal_properties.py:233-296 | The regular tables have the same keys as the context-free ones and answer True wherever those do. |
| Grammars.VerifyClosure | formal_properties.py:220-252 | A context-free grammar gets the context-free closure table. Any other grammar gets an empty table, since none is ever classified regular. |
| Grammars.VerifyDecidability | formal_properties.py:254-298 | A context-free grammar gets the context-free decidability table. Any other grammar gets an empty table. |
| Grammars.TablesReportedIffContextFree | formal_properties.py:229-252 | The tables are non-empty exactly for context-free grammars, and then they are the context-free ones. |
| Grammars.SourceLeftSidesListed | formal_properties.py:72-132 | There are 36 productions and 16 listed names, pairwise distinct, and every left-hand side is one of them. |
| Grammars.SourceLeftSidesOccur | formal_properties.py:72-132 | Each of the 16 listed names is the left-hand side of some production. |
| Grammars.SourceLeftSidesAreNonterminals | formal_properties.py:56-60 | Each of those left-hand sides is in N and has no space. |
| Grammars.SourceIsContextFree | formal_properties.py:56-132 | The grammar of the language is context-free. |
| Grammars.SourceClassification | formal_properties.py:139-152 | It is classified as type 2, with the context-free closure and decidability tables. |
| Emptiness.Pass | formal_properties.py:318-326 | A pass only adds left-hand sides, and reports a change iff it added one. When it adds nothing, every rule with a derivable right-hand side already has its left-hand side generating. |
| Emptiness.PassBelowClosed | formal_properties.py:318-326 | A pass never leaves a closed set that contains its start. |
| Emptiness.Saturate | formal_properties.py:315-326 | The loop ends, only adds left-hand sides, and stops at a closed set. |
| Emptiness.SaturateBelowClosed | formal_properties.py:315-326 | The loop's result lies inside every closed set containing its start. |
| Emptiness.Generating | formal_properties.py:311-326 | The generating set holds only left-hand sides and is closed under the productions. |
| Emptiness.GeneratingLeast | formal_properties.py:311-326 | It is the least closed set. |
| Emptiness.TerminalRuleGenerates | formal_properties.py:323-326 | A production whose right-hand side is empty or all terminals makes its left-hand side generating. |
| Emptiness.UnitRuleGenerates | formal_properties.py:323-326 | A unit production whose token is a terminal or derives one makes its left-hand side derive one, one level higher. |
| Emptiness.GeneratesInClosed | formal_properties.py:323-326 | A symbol deriving a terminal string lies in every closed set. |
| Emptiness.DerivingSymbolsClosed | formal_properties.py:323-326 | The symbols that derive terminal strings form a closed set. |
| Emptiness.GeneratingIffDerives | formal_properties.py:311-326 | A symbol is generating exactly when it derives a string of terminals. |
| Emptiness.CheckEmptiness | formal_properties.py:300-334 | The language is reported empty iff some closed set leaves out the start symbol. |
| Emptiness.EmptinessIffNoDerivation | formal_properties.py:328-334 | The language is reported empty iff the start symbol derives no terminal string. |
| Emptiness.SourceNotEmpty | formal_properties.py:74-80 | The language of the grammar is reported non-empty. |
| Finiteness.NonterminalsOf | formal_properties.py:359-361 | The right-hand-side tokens the search follows are exactly those in N. |
| Finiteness.SuccessorsFrom | formal_properties.py:356-361 | From rule k on, the successors are exactly the nonterminals on right-hand sides of the symbol's productions. |
| Finiteness.Successors | formal_properties.py:356-361 | The successors of a symbol are exactly its edge targets in the graph "lhs → rhs token in N". |
| Finiteness.HasRecursion | formal_properties.py:346-366 | The search terminates, keeps every visited symbol visited, and marks its symbol visited unless it finds recursion. |
| Finiteness.ScanSuccessors | formal_properties.py:356-363 | The loop over successors keeps every visited symbol visited. |
| Finiteness.CheckFiniteness | formal_properties.py:336-374 | The language is reported finite iff no walk from S in that graph repeats a nonterminal. |
| Finiteness.HasRecursionSound | formal_properties.py:346-363 | Given the walk from S that led to the symbol, with the stack holding that walk's nodes, a reported recursion is a walk from S with a repeated node. |
| Finiteness.ScanSuccessorsSound | formal_properties.py:356-363 | The same holds for the loop over successors. |
| Finiteness.FinitenessSound | formal_properties.py:369 | Recursion found from S means a cycle reachable from S. |
| Finiteness.HasRecursionComplete | formal_properties.py:346-366 | When no recursion is found, the finished symbols stay ranked: each edge from a finished symbol goes to a finished one of lower rank. The symbol itself is finished. |
| Finiteness.ScanSuccessorsComplete | formal_properties.py:356-366 | When the loop finds no recursion, all successors end up finished and ranked. |
| Finiteness.ExploreComplete | formal_properties.py:354-366 | Exploring a fresh symbol without finding recursion finishes it. |
| Finiteness.FinishSymbol | formal_properties.py:365-366 | A symbol whose successors are all finished becomes finished with the next rank. |
| Finiteness.FinitenessComplete | formal_properties.py:369 | No recursion found from S means no cycle reachable from S. |
| Finiteness.SourceRecursive | formal_properties.py:74-75 | program → stmt_list → stmt_list is a walk from S that repeats a node. |
| Finiteness.SourceInfinite | formal_properties.py:369-374 | The language of the grammar is reported infinite. |

## Left out
- Display and reporting are left out. This covers `print_parsing_table`, `visualize_stack`, `get_trace`, the demo functions, `analyze_all_properties`, `Grammar.__str__` and `Production.__str__`. They only format text.
- The lexer is left out. `Token` and `TokenType` come from a module that is not part of this model. Tokens are modelled as (kind, value) with the kinds the classifier names plus `Other(name)`. Line and column fields are dropped because `parse` never reads them.
- The trace messages and the explanation strings of the decidability table are abstracted to tagged records and booleans.
- The `parse` object's mutable fields are not objects here. `stack` and `parse_trace`, together with the local cursor `ip`, are the `Config` a run threads and returns. `input_buffer` is the `buf` argument, `PrepareInput(tokens)`, which `parse` never changes after `lr_parser.py:202`.
- LrParser.Run, LrParser.Parse: termination is not claimed. Each is bounded by fuel, and the `OutOfFuel` outcome stands for "still running". The source loop has no bound, and a table with a cycle of reduces would loop forever.
- Grammars.Shrinks compares the character lengths of the left-hand side and of the right-hand side joined by single spaces, as the source compares its strings. Right-hand sides with irregular spacing are not modelled; every production of the grammar is single-spaced. The context-sensitivity test counts characters, not symbols.
- Emptiness.GeneratesIn: derivations are counted by tree height and take a token in Σ as terminal even when it is also in N, as the source does.

=== FILE: Emptiness.dfy ===
/**
  The emptiness test of formal_properties.py: the set of generating symbols is
  grown pass by pass over the productions until a pass adds nothing, and the
  language is empty when the start symbol is not among them. A token counts as
  terminal when it is in Σ, whether or not it is also in N.
 */
module Emptiness {
  import opened Grammars

  /** Every token of a right-hand side is a terminal or in `gen`. */
  predicate Derivable(g: Grammar, rhs: seq<string>, gen: set<string>)
  {
    forall t :: t in rhs ==> t in g.Sigma || t in gen
  }

  /** X is closed under the productions: whenever a right-hand side is derivable
      from X, its left-hand side is in X. */
  predicate Closed(g: Grammar, X: set<string>)
  {
    forall k :: 0 <= k < |g.P| && Derivable(g, g.P[k].rhs, X) ==> g.P[k].lhs in X
  }

  function LeftSides(g: Grammar): set<string>
  {
    set k | 0 <= k < |g.P| :: g.P[k].lhs
  }

  /** x derives a string of terminals by a derivation tree of height at most n. */
  ghost predicate GeneratesIn(g: Grammar, x: string, n: nat)
    decreases n, 1
  {
    exists k :: 0 <= k < |g.P| && g.P[k].lhs == x && RuleGeneratesIn(g, k, n)
  }

  /** Production k rewrites to a string of terminals by a tree of height at most
      n: each token of its right-hand side is a terminal or derives one lower. */
  ghost predicate RuleGeneratesIn(g: Grammar, k: nat, n: nat)
    requires k < |g.P|
    decreases n, 0
  {
    n > 0 && forall t :: t in g.P[k].rhs ==> t in g.Sigma || GeneratesIn(g, t, n - 1)
  }

  /** x derives some string of terminals. */
  ghost predicate Derives(g: Grammar, x: string)
  {
    exists n :: GeneratesIn(g, x, n)
  }

  // ---------------------------------------------------------------------------
  // The passes of the while loop

  datatype PassResult = PassResult(gen: set<string>, changed: bool)

  /** One pass of the `for` loop from production k on: a production whose
      left-hand side is not yet generating and whose right-hand side is
      derivable adds its left-hand side at once, visible to later productions. */
  function Pass(g: Grammar, k: nat, gen: set<string>, changed: bool): (r: PassResult)
    requires k <= |g.P|
    ensures gen <= r.gen <= gen + LeftSides(g)
    ensures r.changed <==> changed || r.gen != gen
    ensures r.gen == gen ==>
              forall i :: k <= i < |g.P| && Derivable(g, g.P[i].rhs, gen) ==> g.P[i].lhs in gen
    decreases |g.P| - k
  {
    if k == |g.P| then PassResult(gen, changed)
    else
      var rule := g.P[k];
      if rule.lhs in gen then Pass(g, k + 1, gen, changed)
      else if Derivable(g, rule.rhs, gen) then Pass(g, k + 1, gen + {rule.lhs}, true)
      else Pass(g, k + 1, gen, changed)
  }

  /** A pass never leaves a closed set that contains its starting point. */
  lemma {:induction false} PassBelowClosed(g: Grammar, k: nat, gen: set<string>, changed: bool, X: set<string>)
    requires k <= |g.P| && Closed(g, X) && gen <= X
    ensures Pass(g, k, gen, changed).gen <= X
    decreases |g.P| - k
  {
    if k < |g.P| {
      var rule := g.P[k];
      if rule.lhs in gen {
        PassBelowClosed(g, k + 1, gen, changed, X);
      } else if Derivable(g, rule.rhs, gen) {
        assert Derivable(g, rule.rhs, X);
        PassBelowClosed(g, k + 1, gen + {rule.lhs}, true, X);
      } else {
        PassBelowClosed(g, k + 1, gen, changed, X);
      }
    }
  }

  lemma StrictlyFewerMissing(all: set<string>, gen: set<string>, more: set<string>)
    requires gen <= more <= gen + all && more != gen
    ensures |all - more| < |all - gen|
  {
    var x :| x in more && x !in gen;
    SubsetSize(all - more, (all - gen) - {x});
  }

  /** The `while changed` loop: passes from `gen` until one changes nothing. */
  function Saturate(g: Grammar, gen: set<string>): (r: set<string>)
    ensures gen <= r <= gen + LeftSides(g)
    ensures Closed(g, r)
    decreases |LeftSides(g) - gen|
  {
    var p := Pass(g, 0, gen, false);
    if p.changed then
      StrictlyFewerMissing(LeftSides(g), gen, p.gen);
      Saturate(g, p.gen)
    else p.gen
  }

  lemma {:induction false} SaturateBelowClosed(g: Grammar, gen: set<string>, X: set<string>)
    requires Closed(g, X) && gen <= X
    ensures Saturate(g, gen) <= X
    decreases |LeftSides(g) - gen|
  {
    var p := Pass(g, 0, gen, false);
    PassBelowClosed(g, 0, gen, false, X);
    if p.changed {
      StrictlyFewerMissing(LeftSides(g), gen, p.gen);
      SaturateBelowClosed(g, p.gen, X);
    }
  }

  /** The generating symbols: the loop run from the empty set. */
  function Generating(g: Grammar): (r: set<string>)
    ensures r <= LeftSides(g)
    ensures Closed(g, r)
  {
    Saturate(g, {})
  }

  /** An ε-production, or one whose right-hand side is all terminals, makes its
      left-hand side generating. */
  lemma TerminalRuleGenerates(g: Grammar, k: nat)
    requires k < |g.P| && forall t :: t in g.P[k].rhs ==> t in g.Sigma
    ensures g.P[k].lhs in Generating(g)
  {
    assert Derivable(g, g.P[k].rhs, Generating(g));
  }

  /** The generating set is the least set closed under the productions. */
  lemma GeneratingLeast(g: Grammar)
    ensures forall X :: Closed(g, X) ==> Generating(g) <= X
  {
    forall X | Closed(g, X)
      ensures Generating(g) <= X
    {
      SaturateBelowClosed(g, {}, X);
    }
  }

  // ---------------------------------------------------------------------------
  // Generating symbols are those that derive terminal strings

  lemma {:induction false} GeneratesInClosed(g: Grammar, x: string, n: nat, X: set<string>)
    requires Closed(g, X) && GeneratesIn(g, x, n)
    ensures x in X
    decreases n
  {
    var k :| 0 <= k < |g.P| && g.P[k].lhs == x && RuleGeneratesIn(g, k, n);
    forall t | t in g.P[k].rhs && t !in g.Sigma
      ensures t in X
    {
      GeneratesInClosed(g, t, n - 1, X);
    }
    assert Derivable(g, g.P[k].rhs, X);
  }

  lemma {:induction false} GeneratesInMonotone(g: Grammar, x: string, n: nat, m: nat)
    requires GeneratesIn(g, x, n) && n <= m
    ensures GeneratesIn(g, x, m)
    decreases n
  {
    var k :| 0 <= k < |g.P| && g.P[k].lhs == x && RuleGeneratesIn(g, k, n);
    forall t | t in g.P[k].rhs && t !in g.Sigma
      ensures GeneratesIn(g, t, m - 1)
    {
      GeneratesInMonotone(g, t, n - 1, m - 1);
    }
    assert RuleGeneratesIn(g, k, m);
  }

  /** The symbols of `D` all derive terminal strings within one common height. */
  lemma {:induction false} CommonHeight(g: Grammar, rhs: seq<string>, D: set<string>) returns (h: nat)
    requires forall t :: t in D ==> Derives(g, t)
    requires Derivable(g, rhs, D)
    ensures forall t :: t in rhs ==> t in g.Sigma || GeneratesIn(g, t, h)
  {
    if rhs == [] {
      h := 0;
    } else {
      var rest := CommonHeight(g, rhs[1..], D);
      var t0 := rhs[0];
      if t0 in g.Sigma {
        h := rest;
      } else {
        var n0 :| GeneratesIn(g, t0, n0);
        h := if n0 < rest then rest else n0;
        GeneratesInMonotone(g, t0, n0, h);
        forall t | t in rhs[1..] && t !in g.Sigma
          ensures GeneratesIn(g, t, h)
        {
          GeneratesInMonotone(g, t, rest, h);
        }
      }
      assert forall t :: t in rhs ==> t == t0 || t in rhs[1..];
    }
  }

  /** The symbols that derive a terminal string form a closed set. */
  lemma DerivingSymbolsClosed(g: Grammar)
    ensures Closed(g, set x | x in LeftSides(g) && Derives(g, x))
  {
    var D := set x | x in LeftSides(g) && Derives(g, x);
    forall k | 0 <= k < |g.P| && Derivable(g, g.P[k].rhs, D)
      ensures g.P[k].lhs in D
    {
      var h := CommonHeight(g, g.P[k].rhs, D);
      assert RuleGeneratesIn(g, k, h + 1);
      assert GeneratesIn(g, g.P[k].lhs, h + 1);
    }
  }

  /** A symbol is generating exactly when it derives a string of terminals. */
  lemma GeneratingIffDerives(g: Grammar, x: string)
    ensures x in Generating(g) <==> Derives(g, x)
  {
    if x in Generating(g) {
      GeneratingLeast(g);
      DerivingSymbolsClosed(g);
      var D := set y | y in LeftSides(g) && Derives(g, y);
      assert Generating(g) <= D;
    }
    if n :| GeneratesIn(g, x, n) {
      GeneratesInClosed(g, x, n, Generating(g));
    }
  }

  // ---------------------------------------------------------------------------
  // The emptiness check

  /** `check_language_emptiness`: empty when the start symbol is not generating,
      i.e. when some closed set leaves it out. */
  function CheckEmptiness(g: Grammar): (isEmpty: bool)
    ensures isEmpty <==> exists X :: Closed(g, X) && g.S !in X
  {
    GeneratingLeast(g);
    g.S !in Generating(g)
  }

  /** The language is reported empty exactly when the start symbol derives no
      string of terminals. */
  lemma EmptinessIffNoDerivation(g: Grammar)
    ensures CheckEmptiness(g) <==> !Derives(g, g.S)
  {
    GeneratingIffDerives(g, g.S);
  }

  /** A unit production whose one token is a terminal or derives one makes its
      left-hand side derive one, one level higher. */
  lemma UnitRuleGenerates(g: Grammar, k: nat, t: string, n: nat)
    requires k < |g.P| && g.P[k].rhs == [t]
    requires t in g.Sigma || GeneratesIn(g, t, n)
    ensures GeneratesIn(g, g.P[k].lhs, n + 1)
  {
    assert RuleGeneratesIn(g, k, n + 1);
  }

  /** The grammar of the language is not empty: program ⇒ stmt_list ⇒ stmt ⇒
      print, where "print" is a terminal of Σ. */
  lemma SourceNotEmpty()
    ensures !CheckEmptiness(Source)
  {
    assert Source.P[4] == Rule("stmt", ["print"]) && "print" in Source.Sigma;
    UnitRuleGenerates(Source, 4, "print", 0);
    assert Source.P[2] == Rule("stmt_list", ["stmt"]);
    UnitRuleGenerates(Source, 2, "stmt", 1);
    assert Source.P[0] == Rule("program", ["stmt_list"]);
    UnitRuleGenerates(Source, 0, "stmt_list", 2);
    EmptinessIffNoDerivation(Source);
  }
}

=== FILE: Finiteness.dfy ===
/**
  The finiteness test of formal_properties.py: a depth-first search from the
  start symbol over the "occurs on a right-hand side of" relation between
  nonterminals, with a visited set shared by the whole search and a stack of
  the symbols under exploration. Meeting a stacked symbol again means the
  grammar is recursive, and the language is then reported infinite.
 */
module Finiteness {
  import opened Grammars

  /** Nonterminal b occurs on the right-hand side of a production of a. */
  ghost predicate Edge(g: Grammar, a: string, b: string)
  {
    b in g.N && exists k :: 0 <= k < |g.P| && g.P[k].lhs == a && b in g.P[k].rhs
  }

  /** w follows edges from one node to the next. */
  ghost predicate IsWalk(g: Grammar, w: seq<string>)
  {
    forall i :: 0 < i < |w| ==> Edge(g, w[i - 1], w[i])
  }

  ghost predicate HasRepeat(w: seq<string>)
  {
    exists i, j :: 0 <= i < j < |w| && w[i] == w[j]
  }

  /** Some walk from the start symbol visits a nonterminal twice: the grammar
      is recursive in a part reachable from S. */
  ghost predicate CycleReachable(g: Grammar)
  {
    exists w :: |w| > 0 && w[0] == g.S && IsWalk(g, w) && HasRepeat(w)
  }

  // ---------------------------------------------------------------------------
  // Successors in the order the search meets them

  /** The tokens of a right-hand side that are nonterminals, in order. */
  function NonterminalsOf(g: Grammar, rhs: seq<string>): (r: seq<string>)
    ensures forall x :: x in r <==> x in rhs && x in g.N
  {
    if rhs == [] then []
    else (if rhs[0] in g.N then [rhs[0]] else []) + NonterminalsOf(g, rhs[1..])
  }

  function SuccessorsFrom(g: Grammar, sym: string, k: nat): (r: seq<string>)
    requires k <= |g.P|
    ensures forall x :: x in r <==>
              x in g.N && exists i :: k <= i < |g.P| && g.P[i].lhs == sym && x in g.P[i].rhs
    decreases |g.P| - k
  {
    if k == |g.P| then []
    else
      var here := if g.P[k].lhs == sym then NonterminalsOf(g, g.P[k].rhs) else [];
      var r := here + SuccessorsFrom(g, sym, k + 1);
      assert forall x :: x in here ==> g.P[k].lhs == sym && x in g.P[k].rhs && x in g.N;
      r
  }

  /** The nonterminals the search explores from sym: those on the right-hand
      sides of sym's productions, production by production, token by token. */
  function Successors(g: Grammar, sym: string): (r: seq<string>)
    ensures forall x :: x in r <==> Edge(g, sym, x)
  {
    SuccessorsFrom(g, sym, 0)
  }

  // ---------------------------------------------------------------------------
  // The search

  /** The symbols the search can visit. */
  function Universe(g: Grammar): set<string>
  {
    g.N + {g.S}
  }

  datatype Search = Search(found: bool, visited: set<string>)

  /** `has_recursion(symbol, visited, stack)`. The visited set is shared by the
      whole search, so the call returns it; the stack is restored on every
      False return and the search stops on the first True, so it is passed by
      value. */
  function HasRecursion(g: Grammar, sym: string, visited: set<string>, stack: set<string>): (r: Search)
    requires sym in Universe(g)
    ensures visited <= r.visited
    ensures !r.found ==> sym in r.visited
    decreases |Universe(g) - visited|, 0
  {
    if sym in stack then Search(true, visited)
    else if sym in visited then Search(false, visited)
    else
      SubsetSize(Universe(g) - (visited + {sym}), (Universe(g) - visited) - {sym});
      ScanSuccessors(g, sym, Successors(g, sym), 0, visited + {sym}, stack + {sym})
  }

  /** The loop over sym's successors from the j-th on. */
  function ScanSuccessors(g: Grammar, sym: string, succs: seq<string>, j: nat,
                          visited: set<string>, stack: set<string>): (r: Search)
    requires j <= |succs|
    requires forall i :: 0 <= i < |succs| ==> succs[i] in g.N
    ensures visited <= r.visited
    decreases |Universe(g) - visited|, |succs| - j + 1
  {
    if j == |succs| then Search(false, visited)
    else
      var r := HasRecursion(g, succs[j], visited, stack);
      if r.found then r
      else
        SubsetSize(Universe(g) - r.visited, Universe(g) - visited);
        ScanSuccessors(g, sym, succs, j + 1, r.visited, stack)
  }

  /** `check_language_finiteness`: finite when the search from S finds no recursion. */
  function CheckFiniteness(g: Grammar): (isFinite: bool)
    ensures isFinite <==> !CycleReachable(g)
  {
    FinitenessSound(g);
    FinitenessComplete(g);
    !HasRecursion(g, g.S, {}, {}).found
  }

  // ---------------------------------------------------------------------------
  // Soundness: a reported recursion is a real cycle

  /** The walk from S that led to sym, then sym: the stack holds the walk's
      nodes before sym. */
  ghost predicate OnPath(g: Grammar, path: seq<string>, sym: string, stack: set<string>)
  {
    && (path == [] ==> sym == g.S)
    && (path != [] ==> path[0] == g.S && IsWalk(g, path) && Edge(g, path[|path| - 1], sym))
    && (forall x :: x in stack <==> x in path)
  }

  /** A walk from S extended by one more node is a walk from S. */
  lemma ExtendWalk(g: Grammar, path: seq<string>, sym: string, stack: set<string>)
    requires OnPath(g, path, sym, stack)
    ensures var w := path + [sym];
            w[0] == g.S && IsWalk(g, w) && w[|w| - 1] == sym
  {
    var w := path + [sym];
    forall i | 0 < i < |w|
      ensures Edge(g, w[i - 1], w[i])
    {
      if i < |path| {
        assert w[i - 1] == path[i - 1] && w[i] == path[i];
      }
    }
  }

  /** A walk from S that repeats a node witnesses a reachable cycle. */
  lemma RepeatIsCycle(g: Grammar, w: seq<string>, i: nat, j: nat)
    requires |w| > 0 && w[0] == g.S && IsWalk(g, w)
    requires i < j < |w| && w[i] == w[j]
    ensures CycleReachable(g)
  {
    assert HasRepeat(w);
  }

  lemma {:induction false} HasRecursionSound(g: Grammar, sym: string, visited: set<string>, stack: set<string>, path: seq<string>)
    requires sym in Universe(g)
    requires OnPath(g, path, sym, stack)
    ensures HasRecursion(g, sym, visited, stack).found ==> CycleReachable(g)
    decreases |Universe(g) - visited|, 1
  {
    if sym in stack {
      var i :| 0 <= i < |path| && path[i] == sym;
      ExtendWalk(g, path, sym, stack);
      RepeatIsCycle(g, path + [sym], i, |path|);
    } else if sym !in visited {
      ExtendWalk(g, path, sym, stack);
      SubsetSize(Universe(g) - (visited + {sym}), (Universe(g) - visited) - {sym});
      ScanSuccessorsSound(g, sym, Successors(g, sym), 0, visited + {sym}, stack + {sym}, path + [sym]);
    }
  }

  lemma {:induction false} ScanSuccessorsSound(g: Grammar, sym: string, succs: seq<string>, j: nat,
                                              visited: set<string>, stack: set<string>, path: seq<string>)
    requires j <= |succs|
    requires forall i :: 0 <= i < |succs| ==> succs[i] in g.N && Edge(g, sym, succs[i])
    requires |path| > 0 && path[0] == g.S && path[|path| - 1] == sym && IsWalk(g, path)
    requires forall x :: x in stack <==> x in path
    ensures ScanSuccessors(g, sym, succs, j, visited, stack).found ==> CycleReachable(g)
    decreases |Universe(g) - visited|, |succs| - j + 1
  {
    if j < |succs| {
      HasRecursionSound(g, succs[j], visited, stack, path);
      var r := HasRecursion(g, succs[j], visited, stack);
      if !r.found {
        SubsetSize(Universe(g) - r.visited, Universe(g) - visited);
        ScanSuccessorsSound(g, sym, succs, j + 1, r.visited, stack, path);
      }
    }
  }

  lemma FinitenessSound(g: Grammar)
    ensures HasRecursion(g, g.S, {}, {}).found ==> CycleReachable(g)
  {
    HasRecursionSound(g, g.S, {}, {}, []);
  }

  // ---------------------------------------------------------------------------
  // Completeness: a cycle reachable from S is always reported

  /** The finished ("black") symbols carry distinct ranks below their number,
      and every edge out of a finished symbol leads to a finished symbol of
      strictly lower rank. */
  ghost predicate Ranked(g: Grammar, black: set<string>, rank: map<string, nat>)
  {
    && (forall x :: x in black ==> x in rank && rank[x] < |black|)
    && (forall a, b :: a in black && Edge(g, a, b) ==> b in black && rank[b] < rank[a])
  }

  lemma {:induction false} HasRecursionComplete(g: Grammar, sym: string, visited: set<string>, stack: set<string>,
                                               rank: map<string, nat>) returns (rank': map<string, nat>)
    requires sym in Universe(g) && stack <= visited
    requires Ranked(g, visited - stack, rank)
    ensures var r := HasRecursion(g, sym, visited, stack);
            !r.found ==> sym in r.visited - stack && Ranked(g, r.visited - stack, rank')
    decreases |Universe(g) - visited|, 1
  {
    rank' := rank;
    if sym !in stack && sym !in visited {
      SubsetSize(Universe(g) - (visited + {sym}), (Universe(g) - visited) - {sym});
      rank' := ExploreComplete(g, sym, visited, stack, rank);
    }
  }

  /** The call that explores a fresh symbol: scan its successors, then finish it. */
  lemma {:induction false} ExploreComplete(g: Grammar, sym: string, visited: set<string>, stack: set<string>,
                                          rank: map<string, nat>) returns (rank': map<string, nat>)
    requires sym in Universe(g) && stack <= visited && sym !in visited
    requires Ranked(g, visited - stack, rank)
    ensures var r := ScanSuccessors(g, sym, Successors(g, sym), 0, visited + {sym}, stack + {sym});
            !r.found ==> sym in r.visited - stack && Ranked(g, r.visited - stack, rank')
    decreases |Universe(g) - visited|, 0
  {
    rank' := rank;
    var succs := Successors(g, sym);
    var stack' := stack + {sym};
    SubsetSize(Universe(g) - (visited + {sym}), (Universe(g) - visited) - {sym});
    assert (visited + {sym}) - stack' == visited - stack;
    SuccessorsAreNonterminals(g, sym);
    var rankEnd := ScanSuccessorsComplete(g, sym, succs, 0, visited + {sym}, stack', rank);
    var r := ScanSuccessors(g, sym, succs, 0, visited + {sym}, stack');
    if !r.found {
      rank' := rankEnd[sym := |r.visited - stack'|];
      FinishSymbol(g, sym, succs, r.visited, stack, rankEnd);
    }
  }

  lemma SuccessorsAreNonterminals(g: Grammar, sym: string)
    ensures forall i :: 0 <= i < |Successors(g, sym)| ==> Successors(g, sym)[i] in g.N
  {
    var succs := Successors(g, sym);
    forall i | 0 <= i < |succs|
      ensures succs[i] in g.N
    {
      assert succs[i] in succs;
    }
  }

  /** Once all its successors are finished, sym is finished with the next rank. */
  lemma FinishSymbol(g: Grammar, sym: string, succs: seq<string>, visited: set<string>, stack: set<string>,
                     rank: map<string, nat>)
    requires sym in visited && sym !in stack && Ranked(g, visited - (stack + {sym}), rank)
    requires forall i :: 0 <= i < |succs| ==> succs[i] in visited - (stack + {sym})
    requires succs == Successors(g, sym)
    ensures sym in visited - stack
    ensures Ranked(g, visited - stack, rank[sym := |visited - (stack + {sym})|])
  {
    var black := visited - (stack + {sym});
    assert visited - stack == black + {sym};
    var rank' := rank[sym := |black|];
    forall a, b | a in black + {sym} && Edge(g, a, b)
      ensures b in black + {sym} && rank'[b] < rank'[a]
    {
      if a == sym {
        assert b in succs;
      }
    }
  }

  lemma {:induction false} ScanSuccessorsComplete(g: Grammar, sym: string, succs: seq<string>, j: nat,
                                                  visited: set<string>, stack: set<string>,
                                                  rank: map<string, nat>) returns (rank': map<string, nat>)
    requires j <= |succs|
    requires forall i :: 0 <= i < |succs| ==> succs[i] in g.N
    requires stack <= visited && Ranked(g, visited - stack, rank)
    requires forall i :: 0 <= i < j ==> succs[i] in visited - stack
    ensures var r := ScanSuccessors(g, sym, succs, j, visited, stack);
            !r.found ==> Ranked(g, r.visited - stack, rank') && forall i :: 0 <= i < |succs| ==> succs[i] in r.visited - stack
    decreases |Universe(g) - visited|, |succs| - j + 1
  {
    rank' := rank;
    if j < |succs| {
      var rj := HasRecursionComplete(g, succs[j], visited, stack, rank);
      var r := HasRecursion(g, succs[j], visited, stack);
      if !r.found {
        SubsetSize(Universe(g) - r.visited, Universe(g) - visited);
        assert forall i :: 0 <= i < j + 1 ==> succs[i] in r.visited - stack;
        rank' := ScanSuccessorsComplete(g, sym, succs, j + 1, r.visited, stack, rj);
        assert ScanSuccessors(g, sym, succs, j, visited, stack) == ScanSuccessors(g, sym, succs, j + 1, r.visited, stack);
      }
    }
  }

  /** Along a walk that starts at a finished symbol every symbol is finished and
      the ranks strictly decrease. */
  lemma {:induction false} WalkDescends(g: Grammar, black: set<string>, rank: map<string, nat>, w: seq<string>, i: nat, j: nat)
    requires Ranked(g, black, rank) && IsWalk(g, w) && |w| > 0 && w[0] in black
    requires i < j < |w|
    ensures w[i] in black && w[j] in black && rank[w[j]] < rank[w[i]]
    decreases j
  {
    if j == i + 1 {
      WalkStaysBlack(g, black, rank, w, i);
    } else {
      WalkDescends(g, black, rank, w, i, j - 1);
      WalkStaysBlack(g, black, rank, w, j - 1);
    }
  }

  lemma {:induction false} WalkStaysBlack(g: Grammar, black: set<string>, rank: map<string, nat>, w: seq<string>, i: nat)
    requires Ranked(g, black, rank) && IsWalk(g, w) && |w| > 0 && w[0] in black
    requires i < |w|
    ensures w[i] in black
    decreases i
  {
    if i > 0 {
      WalkStaysBlack(g, black, rank, w, i - 1);
      assert Edge(g, w[i - 1], w[i]);
    }
  }

  lemma FinitenessComplete(g: Grammar)
    ensures !HasRecursion(g, g.S, {}, {}).found ==> !CycleReachable(g)
  {
    var rank := HasRecursionComplete(g, g.S, {}, {}, map[]);
    var r := HasRecursion(g, g.S, {}, {});
    if !r.found && CycleReachable(g) {
      var w :| |w| > 0 && w[0] == g.S && IsWalk(g, w) && HasRepeat(w);
      var i, j :| 0 <= i < j < |w| && w[i] == w[j];
      WalkDescends(g, r.visited, rank, w, i, j);
      assert false;
    }
  }

  // ---------------------------------------------------------------------------
  // The grammar of the language

  /** The walk program → stmt_list → stmt_list: the language is reported infinite. */
  lemma SourceInfinite()
    ensures !CheckFiniteness(Source)
  {
    SourceRecursive();
  }

  lemma SourceRecursive()
    ensures CycleReachable(Source)
  {
    SourceStartEdge();
    SourceListEdge();
    SelfLoopReachable(Source, "stmt_list");
  }

  /** A nonterminal with an edge to itself, one edge away from S, closes a cycle. */
  lemma SelfLoopReachable(g: Grammar, x: string)
    requires Edge(g, g.S, x) && Edge(g, x, x)
    ensures CycleReachable(g)
  {
    var w := [g.S, x, x];
    assert IsWalk(g, w);
    RepeatIsCycle(g, w, 1, 2);
  }

  lemma SourceStartEdge()
    ensures Edge(Source, "program", "stmt_list")
  {
    assert Source.P[0] == Rule("program", ["stmt_list"]);
  }

  lemma SourceListEdge()
    ensures Edge(Source, "stmt_list", "stmt_list")
  {
    assert Source.P[1] == Rule("stmt_list", ["stmt", "stmt_list"]);
  }
}

=== FILE: Grammars.dfy ===
/**
  The formal grammar G = (N, Σ, P, S) of the compiled Python subset and its
  place in the Chomsky hierarchy (formal_properties.py). A production's
  right-hand side is kept as the list of its whitespace-separated tokens, the
  empty list standing for ε; N and Σ are independent sets and may overlap.
 */
module Grammars {

  datatype LanguageType = Type0 | Type1 | Type2 | Type3

  /** A production lhs → rhs. */
  datatype Rule = Rule(lhs: string, rhs: seq<string>)

  datatype Grammar = Grammar(N: set<string>, Sigma: set<string>, P: seq<Rule>, S: string)

  // ---------------------------------------------------------------------------
  // The grammar of the language

  const SourceN: set<string> := {
    "program", "stmt_list", "stmt", "assign", "print", "if", "while", "for",
    "block", "expr", "comparison", "arithmetic", "term", "factor",
    "list", "call"
  }

  const SourceSigma: set<string> := {
    "ID", "NUMBER", "STRING", "=", "+", "-", "*", "/", "%",
    "==", "!=", "<", ">", "<=", ">=",
    "(", ")", "[", "]", ":", ",",
    "if", "elif", "else", "while", "for", "in", "print", "range", "len",
    "INDENT", "DEDENT", "NEWLINE"
  }

  const SourceRules: seq<Rule> := [
    Rule("program", ["stmt_list"]),
    Rule("stmt_list", ["stmt", "stmt_list"]),
    Rule("stmt_list", ["stmt"]),
    Rule("stmt", ["assign"]),
    Rule("stmt", ["print"]),
    Rule("stmt", ["if"]),
    Rule("stmt", ["while"]),
    Rule("stmt", ["for"]),
    Rule("assign", ["ID", "=", "expr"]),
    Rule("print", ["print", "(", "expr", ")"]),
    Rule("if", ["if", "expr", ":", "block"]),
    Rule("if", ["if", "expr", ":", "block", "else", ":", "block"]),
    Rule("while", ["while", "expr", ":", "block"]),
    Rule("for", ["for", "ID", "in", "expr", ":", "block"]),
    Rule("block", ["INDENT", "stmt_list", "DEDENT"]),
    Rule("expr", ["comparison"]),
    Rule("comparison", ["arithmetic"]),
    Rule("comparison", ["arithmetic", "==", "arithmetic"]),
    Rule("comparison", ["arithmetic", "!=", "arithmetic"]),
    Rule("comparison", ["arithmetic", "<", "arithmetic"]),
    Rule("comparison", ["arithmetic", ">", "arithmetic"]),
    Rule("arithmetic", ["term"]),
    Rule("arithmetic", ["arithmetic", "+", "term"]),
    Rule("arithmetic", ["arithmetic", "-", "term"]),
    Rule("term", ["factor"]),
    Rule("term", ["term", "*", "factor"]),
    Rule("term", ["term", "/", "factor"]),
    Rule("factor", ["NUMBER"]),
    Rule("factor", ["STRING"]),
    Rule("factor", ["ID"]),
    Rule("factor", ["(", "expr", ")"]),
    Rule("factor", ["list"]),
    Rule("factor", ["call"]),
    Rule("list", ["[", "]"]),
    Rule("call", ["range", "(", "expr", ")"]),
    Rule("call", ["len", "(", "expr", ")"])
  ]

  const Source: Grammar := Grammar(SourceN, SourceSigma, SourceRules, "program")

  // ---------------------------------------------------------------------------
  // Classification

  /** A left-hand side made of a single nonterminal: in N and without a space. */
  predicate SingleNonterminal(g: Grammar, x: string)
  {
    x in g.N && ' ' !in x
  }

  /** The number of characters in the tokens of a right-hand side. */
  function Chars(rhs: seq<string>): nat
  {
    if rhs == [] then 0 else |rhs[0]| + Chars(rhs[1..])
  }

  /** The right-hand side as written: its tokens joined by single spaces. */
  function RhsText(rhs: seq<string>): (r: string)
    ensures rhs == [] ==> r == ""
    ensures rhs != [] ==> |r| == Chars(rhs) + |rhs| - 1
  {
    if rhs == [] then ""
    else if |rhs| == 1 then rhs[0]
    else rhs[0] + " " + RhsText(rhs[1..])
  }

  /** A production that shortens the sentential form: its left-hand side has more
      characters than its (non-empty) right-hand side. Counted in characters,
      a right-hand side of n tokens is their characters plus n - 1 spaces. */
  function Shrinks(r: Rule): (b: bool)
    ensures b <==> r.rhs != [] && |r.lhs| >= Chars(r.rhs) + |r.rhs|
    ensures |r.rhs| == 1 ==> (b <==> |r.lhs| > |r.rhs[0]|)
  {
    |r.lhs| > |RhsText(r.rhs)| && r.rhs != []
  }

  /** The right-linear check of `_is_regular`, from production i on. Whatever
      it finds, the method answers False: the grammar is never reported regular. */
  function RegularFrom(g: Grammar, i: nat): (r: bool)
    ensures !r
    decreases |g.P| - i
  {
    if i >= |g.P| then false
    else
      var rule := g.P[i];
      if rule.rhs == [] then RegularFrom(g, i + 1)
      else if !SingleNonterminal(g, rule.lhs) then false
      else if |rule.rhs| > 2 then false
      else if |rule.rhs| == 2 && rule.rhs[1] !in g.N then false
      else RegularFrom(g, i + 1)
  }

  function IsRegular(g: Grammar): (r: bool)
    ensures !r
  {
    RegularFrom(g, 0)
  }

  /** The scan of `_is_context_free` from production i on. */
  function ContextFreeFrom(g: Grammar, i: nat): (r: bool)
    requires i <= |g.P|
    ensures r <==> forall k :: i <= k < |g.P| ==> SingleNonterminal(g, g.P[k].lhs)
    decreases |g.P| - i
  {
    if i == |g.P| then true
    else if !SingleNonterminal(g, g.P[i].lhs) then false
    else ContextFreeFrom(g, i + 1)
  }

  /** Context-free: every left-hand side is a single nonterminal. */
  function IsContextFree(g: Grammar): (r: bool)
    ensures r <==> forall k :: 0 <= k < |g.P| ==> SingleNonterminal(g, g.P[k].lhs)
  {
    ContextFreeFrom(g, 0)
  }

  /** The length scan of `_is_context_sensitive` from production i on. */
  function NoShrinkingFrom(g: Grammar, i: nat): (r: bool)
    requires i <= |g.P|
    ensures r <==> forall k :: i <= k < |g.P| ==> !Shrinks(g.P[k])
    decreases |g.P| - i
  {
    if i == |g.P| then true
    else if Shrinks(g.P[i]) then false
    else NoShrinkingFrom(g, i + 1)
  }

  /** Context-sensitive: context-free, or no production shrinks. */
  function IsContextSensitive(g: Grammar): (r: bool)
    ensures IsContextFree(g) ==> r
    ensures !IsContextFree(g) ==> (r <==> forall k :: 0 <= k < |g.P| ==> !Shrinks(g.P[k]))
  {
    IsContextFree(g) || NoShrinkingFrom(g, 0)
  }

  /** `classify_grammar`: the first test that succeeds, from regular down. */
  function Classify(g: Grammar): (t: LanguageType)
    ensures t != Type3
    ensures t == Type2 <==> forall k :: 0 <= k < |g.P| ==> SingleNonterminal(g, g.P[k].lhs)
    ensures t == Type1 <==>
              && (exists k :: 0 <= k < |g.P| && !SingleNonterminal(g, g.P[k].lhs))
              && (forall k :: 0 <= k < |g.P| ==> !Shrinks(g.P[k]))
    ensures t == Type0 <==>
              && (exists k :: 0 <= k < |g.P| && !SingleNonterminal(g, g.P[k].lhs))
              && (exists k :: 0 <= k < |g.P| && Shrinks(g.P[k]))
  {
    if IsRegular(g) then Type3
    else if IsContextFree(g) then Type2
    else if IsContextSensitive(g) then Type1
    else Type0
  }

  // ---------------------------------------------------------------------------
  // Closure and decidability

  const ClosureOps: set<string> := {"union", "concatenation", "kleene_star", "intersection", "complement", "reversal"}

  const DecisionProblems: set<string> := {"membership", "emptiness", "finiteness", "equivalence", "ambiguity"}

  /** The closure table reported for a language type: context-free languages are
      closed under everything but intersection and complement, regular ones
      under all six; nothing is reported for the other types. */
  function ClosureProperties(t: LanguageType): (m: map<string, bool>)
    ensures t == Type2 || t == Type3 ==> m.Keys == ClosureOps
    ensures t == Type2 ==> forall op :: op in m ==> (m[op] <==> op != "intersection" && op != "complement")
    ensures t == Type3 ==> forall op :: op in m ==> m[op]
    ensures t == Type0 || t == Type1 ==> m == map[]
  {
    match t
    case Type2 =>
      map["union" := true, "concatenation" := true, "kleene_star" := true,
          "intersection" := false, "complement" := false, "reversal" := true]
    case Type3 =>
      map["union" := true, "concatenation" := true, "kleene_star" := true,
          "intersection" := true, "complement" := true, "reversal" := true]
    case _ => map[]
  }

  /** The decidability verdicts reported for a language type (the explanations
      that accompany them are not modelled). */
  function DecidabilityProperties(t: LanguageType): (m: map<string, bool>)
    ensures t == Type2 || t == Type3 ==> m.Keys == DecisionProblems
    ensures t == Type2 ==> forall p :: p in m ==> (m[p] <==> p != "equivalence" && p != "ambiguity")
    ensures t == Type3 ==> forall p :: p in m ==> m[p]
    ensures t == Type0 || t == Type1 ==> m == map[]
  {
    match t
    case Type2 =>
      map["membership" := true, "emptiness" := true, "finiteness" := true,
          "equivalence" := false, "ambiguity" := false]
    case Type3 =>
      map["membership" := true, "emptiness" := true, "finiteness" := true,
          "equivalence" := true, "ambiguity" := true]
    case _ => map[]
  }

  /** Whatever holds of context-free languages holds of regular ones: the regular
      tables answer True wherever the context-free ones do, on the same keys. */
  lemma RegularTablesDominate()
    ensures ClosureProperties(Type2).Keys == ClosureProperties(Type3).Keys
    ensures forall op :: op in ClosureProperties(Type2) && ClosureProperties(Type2)[op] ==> ClosureProperties(Type3)[op]
    ensures DecidabilityProperties(Type2).Keys == DecidabilityProperties(Type3).Keys
    ensures forall p :: p in DecidabilityProperties(Type2) && DecidabilityProperties(Type2)[p] ==> DecidabilityProperties(Type3)[p]
  {
  }

  /** `verify_closure_properties`: the closure table of the grammar's class. */
  function VerifyClosure(g: Grammar): (m: map<string, bool>)
    ensures IsContextFree(g) ==> m == ClosureProperties(Type2)
    ensures !IsContextFree(g) ==> m == map[]
  {
    ClosureProperties(Classify(g))
  }

  /** `verify_decidability_properties`: the decidability table of the grammar's class. */
  function VerifyDecidability(g: Grammar): (m: map<string, bool>)
    ensures IsContextFree(g) ==> m == DecidabilityProperties(Type2)
    ensures !IsContextFree(g) ==> m == map[]
  {
    DecidabilityProperties(Classify(g))
  }

  /** Since no grammar is reported regular, the tables are non-empty exactly for
      context-free grammars, and then they are the context-free ones. */
  lemma TablesReportedIffContextFree(g: Grammar)
    ensures VerifyClosure(g) != map[] <==> IsContextFree(g)
    ensures VerifyDecidability(g) != map[] <==> IsContextFree(g)
    ensures IsContextFree(g) ==> VerifyClosure(g) == ClosureProperties(Type2)
  {
    var t := Classify(g);
    if t == Type2 {
      assert "union" in VerifyClosure(g);
      assert "membership" in VerifyDecidability(g);
    }
  }

  // ---------------------------------------------------------------------------
  // The grammar of the language is context-free

  /** The distinct left-hand sides of the productions, in order of appearance. */
  const SourceLeftSides: seq<string> := [
    "program", "stmt_list", "stmt", "assign", "print", "if", "while", "for",
    "block", "expr", "comparison", "arithmetic", "term", "factor", "list", "call"
  ]

  /** The 36 productions have exactly the 16 distinct left-hand sides listed. */
  lemma SourceLeftSidesListed()
    ensures |SourceRules| == 36 && |SourceLeftSides| == 16
    ensures forall i, j :: 0 <= i < j < |SourceLeftSides| ==> SourceLeftSides[i] != SourceLeftSides[j]
    ensures forall k :: 0 <= k < |SourceRules| ==> SourceRules[k].lhs in SourceLeftSides
  {
  }

  /** x is the left-hand side of some production of the grammar of the language. */
  predicate SourceLeftSide(x: string)
  {
    exists k :: 0 <= k < |SourceRules| && SourceRules[k].lhs == x
  }

  /** Each listed name is the left-hand side of some production. */
  lemma SourceLeftSidesOccur()
    ensures forall j :: 0 <= j < |SourceLeftSides| ==> SourceLeftSide(SourceLeftSides[j])
  {
    var first := [0, 1, 3, 8, 9, 10, 12, 13, 14, 15, 16, 21, 24, 27, 33, 34];
    forall j | 0 <= j < |SourceLeftSides|
      ensures SourceLeftSide(SourceLeftSides[j])
    {
      FirstLeftSide(first[j], SourceLeftSides[j]);
    }
  }

  lemma FirstLeftSide(k: nat, x: string)
    requires k < |SourceRules| && SourceRules[k].lhs == x
    ensures SourceLeftSide(x)
  {
  }

  lemma SourceLeftSidesAreNonterminals()
    ensures forall x :: x in SourceLeftSides ==> SingleNonterminal(Source, x)
  {
    SourceLeftSidesInN();
    SourceLeftSidesUnspaced();
  }

  lemma SourceLeftSidesInN()
    ensures forall x :: x in SourceLeftSides ==> x in SourceN
  {
  }

  lemma SourceLeftSidesUnspaced()
    ensures forall x :: x in SourceLeftSides ==> ' ' !in x
  {
  }

  lemma SourceIsContextFree()
    ensures IsContextFree(Source)
  {
    SourceLeftSidesListed();
    SourceLeftSidesAreNonterminals();
  }

  /** The grammar is classified as context-free (type 2), with the context-free
      closure and decidability tables. */
  lemma SourceClassification()
    ensures Classify(Source) == Type2
    ensures VerifyClosure(Source) == ClosureProperties(Type2)
    ensures VerifyDecidability(Source) == DecidabilityProperties(Type2)
  {
    SourceIsContextFree();
  }

  // ---------------------------------------------------------------------------
  // Sets of symbols

  /** A general fact about finite sets, used by the termination arguments of the
      grammar analyses: a subset has no more elements than its superset. */
  lemma {:induction false} SubsetSize(a: set<string>, b: set<string>)
    requires a <= b
    ensures |a| <= |b|
    decreases |a|
  {
    if a != {} {
      var y :| y in a;
      SubsetSize(a - {y}, b - {y});
    }
  }
}

=== FILE: LrAction.dfy ===
/**
  The entries of the ACTION table (lr_parser.py, `Action` and `LRAction`) and
  their short textual form `s<n>`, `r<n>`, `acc`, `err` used in the parse trace.
  Reading that text back recovers the entry, so the trace loses nothing about
  which decision was taken.
 */
module LrAction {
  import opened Wrappers

  /** Shift carries the target state, Reduce the production number. */
  datatype LRAction = Shift(target: nat) | Reduce(production: nat) | Accept | Error

  predicate IsDigit(c: char)
  {
    '0' <= c <= '9'
  }

  predicate AllDigits(s: string)
  {
    forall i :: 0 <= i < |s| ==> IsDigit(s[i])
  }

  function DigitChar(d: nat): (c: char)
    requires d < 10
    ensures IsDigit(c) && c as int - '0' as int == d
  {
    "0123456789"[d]
  }

  /** Decimal text of a natural number, most significant digit first, no leading zeros. */
  function NatText(n: nat): (s: string)
    ensures |s| >= 1 && AllDigits(s)
    ensures |s| > 1 ==> s[0] != '0'
    decreases n
  {
    if n < 10 then [DigitChar(n)] else NatText(n / 10) + [DigitChar(n % 10)]
  }

  /** The number a string of decimal digits denotes. */
  function DigitsValue(s: string): nat
    requires AllDigits(s)
    decreases |s|
  {
    if s == [] then 0
    else DigitsValue(s[..|s| - 1]) * 10 + (s[|s| - 1] as int - '0' as int)
  }

  /** Reading back the decimal text of n gives n. */
  lemma {:induction false} NatTextRoundTrip(n: nat)
    ensures DigitsValue(NatText(n)) == n
    decreases n
  {
    if n >= 10 {
      var s := NatText(n);
      assert s[..|s| - 1] == NatText(n / 10);
      NatTextRoundTrip(n / 10);
    }
  }

  /** The textual form of an action, as `LRAction.__str__` renders it. */
  function ActionText(a: LRAction): (s: string)
    ensures |s| >= 1
    ensures s[0] == 's' <==> a.Shift?
    ensures s[0] == 'r' <==> a.Reduce?
    ensures (a.Shift? || a.Reduce?) ==> |s| >= 2 && AllDigits(s[1..])
  {
    match a
    case Shift(n) => "s" + NatText(n)
    case Reduce(p) => "r" + NatText(p)
    case Accept => "acc"
    case Error => "err"
  }

  /** Reads an action's textual form back; None for text no action renders to. */
  function ParseActionText(s: string): Option<LRAction>
  {
    if s == "acc" then Some(Accept)
    else if s == "err" then Some(Error)
    else if |s| >= 2 && AllDigits(s[1..]) && s[0] == 's' then Some(Shift(DigitsValue(s[1..])))
    else if |s| >= 2 && AllDigits(s[1..]) && s[0] == 'r' then Some(Reduce(DigitsValue(s[1..])))
    else None
  }

  /** Rendering then reading back is the identity. */
  lemma ActionTextRoundTrip(a: LRAction)
    ensures ParseActionText(ActionText(a)) == Some(a)
  {
    match a
    case Shift(n) =>
      assert ActionText(a)[1..] == NatText(n);
      NatTextRoundTrip(n);
    case Reduce(p) =>
      assert ActionText(a)[1..] == NatText(p);
      NatTextRoundTrip(p);
    case Accept =>
    case Error =>
  }

  /** Distinct actions never print the same. */
  lemma ActionTextInjective(a: LRAction, b: LRAction)
    ensures ActionText(a) == ActionText(b) ==> a == b
  {
    ActionTextRoundTrip(a);
    ActionTextRoundTrip(b);
  }
}

=== FILE: LrConcrete.dfy ===
/**
  The automaton run on the hand-built tables of lr_parser.py. Those tables are
  deliberately partial: from state 0 at most two shifts are possible before a
  missing ACTION entry, so every input is rejected within three steps, and no
  reduce (hence no underflow) is ever reached.
 */
module LrConcrete {
  import opened Tokens
  import opened LrAction
  import opened LrTables
  import opened LrParser
  import opened LrSafety

  /** Minimum number of symbol/state pairs under each state of the hand-built
      tables: none under the start state, one under the states reached by a
      single shift or GOTO from it, two under 10 and 11, three under 15 and 16. */
  function StateDepth(q: nat): nat
  {
    if q == 0 then 0 else if q < 10 then 1 else if q < 15 then 2 else 3
  }

  const HandBuiltDepth: map<nat, nat> := map q: nat | q < 17 :: StateDepth(q)

  /** The hand-built tables respect that depth bound. */
  lemma HandBuiltDepthBounded()
    ensures DepthBounded(HandBuilt, HandBuiltDepth)
  {
    HandBuiltActionsRespectDepth();
    HandBuiltGotosRespectDepth();
  }

  lemma HandBuiltActionsRespectDepth()
    ensures forall key :: key in HandBuilt.action && key.0 in HandBuiltDepth ==>
              ActionRespectsDepth(HandBuilt, HandBuiltDepth, key.0, HandBuilt.action[key])
  {
    forall key | key in HandBuiltAction && key.0 in HandBuiltDepth
      ensures ActionRespectsDepth(HandBuilt, HandBuiltDepth, key.0, HandBuiltAction[key])
    {
      if key.0 == 0 {
        HandBuiltState0Entries(key);
      } else if key.0 == 3 {
        HandBuiltState3Entries(key);
        assert |HandBuiltProductions[3].rhs| == 1;
      } else {
        HandBuiltOtherEntries(key);
        assert |HandBuiltProductions[1].rhs| == 1;
      }
    }
  }

  lemma HandBuiltGotosRespectDepth()
    ensures forall key :: key in HandBuilt.goto && key.0 in HandBuiltDepth ==>
              HandBuilt.goto[key] in HandBuiltDepth && HandBuiltDepth[HandBuilt.goto[key]] <= HandBuiltDepth[key.0] + 1
  {
    HandBuiltGotoKeys();
    HandBuiltGotoValues();
    forall key | key in HandBuilt.goto && key.0 in HandBuiltDepth
      ensures HandBuilt.goto[key] in HandBuiltDepth && HandBuiltDepth[HandBuilt.goto[key]] <= HandBuiltDepth[key.0] + 1
    {
      assert HandBuiltGotoKey(key);
    }
  }

  /** So no parse with the hand-built tables ever pops more than the stack holds. */
  lemma HandBuiltNeverUnderflows(tokens: seq<Token>, fuel: nat)
    ensures NeverUnderflows(HandBuilt, PrepareInput(tokens), Config(InitialStack, 0, []), fuel)
  {
    HandBuiltDepthBounded();
    InitialDepthInv(HandBuilt, HandBuiltDepth);
    DepthBoundedNeverUnderflows(HandBuilt, HandBuiltDepth, PrepareInput(tokens), Config(InitialStack, 0, []), fuel);
  }

  // ---------------------------------------------------------------------------
  // Every input is rejected

  /** The states a run on the hand-built tables can reach: the start state and
      the targets of its shifts, plus the targets of the shifts out of 5 and 6. */
  predicate Reachable(q: nat)
  {
    q == 0 || 5 <= q <= 11
  }

  /** How many more shifts the hand-built ACTION table allows from state q. */
  function ShiftsLeft(q: nat): nat
  {
    if q == 0 then 2 else if q == 5 || q == 6 then 1 else 0
  }

  /** One step from a reachable state either stops on a missing ACTION entry or
      shifts a terminal other than "$" into a reachable state with fewer shifts left. */
  lemma HandBuiltStep(buf: seq<Token>, c: Config)
    requires Alternating(c.stack) && Reachable(TopState(c.stack)) && c.ip < |buf|
    ensures var r := Step(HandBuilt, buf, c);
            && (r.Halt? ==> r.outcome.Rejected? && r.outcome.why.ActionMiss?)
            && (r.Continue? ==>
                  && Reachable(TopState(r.next.stack))
                  && ShiftsLeft(TopState(r.next.stack)) < ShiftsLeft(TopState(c.stack))
                  && r.next.ip == c.ip + 1
                  && CurrentTerminal(buf, c) != EndTerminal)
  {
    var q := TopState(c.stack);
    var key := (q, CurrentTerminal(buf, c));
    if key in HandBuiltAction {
      if q == 0 {
        HandBuiltState0Entries(key);
      } else {
        HandBuiltOtherEntries(key);
      }
      ShiftStep(HandBuilt, buf, c);
    } else {
      ActionMissStep(HandBuilt, buf, c);
    }
  }

  /** From a reachable state, no run accepts; given more fuel than shifts left it
      stops on a missing ACTION entry, and the cursor moves at most once per shift. */
  lemma {:induction false} HandBuiltRunRejects(buf: seq<Token>, c: Config, fuel: nat)
    requires Alternating(c.stack) && Reachable(TopState(c.stack)) && c.ip < |buf|
    requires TerminalOf(buf[|buf| - 1]) == EndTerminal
    ensures var r := Run(HandBuilt, buf, c, fuel);
            && !r.outcome.Accepted?
            && (fuel > ShiftsLeft(TopState(c.stack)) ==> r.outcome.Rejected? && r.outcome.why.ActionMiss?)
            && r.final.ip <= c.ip + ShiftsLeft(TopState(c.stack))
    decreases fuel
  {
    if fuel > 0 {
      HandBuiltStep(buf, c);
      var s := Step(HandBuilt, buf, c);
      if s.Continue? {
        HandBuiltRunRejects(buf, s.next, fuel - 1);
      }
    }
  }

  /** `parse` with the hand-built tables returns False on every token list: within
      three iterations it meets a missing ACTION entry, after at most two shifts. */
  lemma HandBuiltRejectsEverything(tokens: seq<Token>, fuel: nat)
    ensures !Verdict(Parse(HandBuilt, tokens, fuel).outcome)
    ensures fuel >= 3 ==>
              Parse(HandBuilt, tokens, fuel).outcome.Rejected? && Parse(HandBuilt, tokens, fuel).outcome.why.ActionMiss?
    ensures Parse(HandBuilt, tokens, fuel).final.ip <= 2
  {
    HandBuiltRunRejects(PrepareInput(tokens), Config(InitialStack, 0, []), fuel);
  }

  // ---------------------------------------------------------------------------
  // The demonstration input `x = 5`

  /** The tokens of `x = 5` followed by a newline and the end of input. */
  const AssignTokens: seq<Token> := [
    Token(Identifier, "x"), Token(Assign, "="), Token(Number, "5"), Token(Newline, "\n"), Token(Eof, "")
  ]

  /** The prepared buffer of `x = 5`. */
  const AssignBuf: seq<Token> := [AssignTokens[0], AssignTokens[1], AssignTokens[2]] + [EndMarker]

  /** Dropping layout keeps the identifier, "=" and the number, and loses the
      newline and the end token. */
  lemma AssignKeptTokens()
    ensures DropLayout(AssignTokens) == [AssignTokens[0], AssignTokens[1], AssignTokens[2]]
  {
    var words := [AssignTokens[0], AssignTokens[1], AssignTokens[2]];
    var layout := [AssignTokens[3], AssignTokens[4]];
    assert AssignTokens == words + layout;
    DropLayoutAppend(words, layout);
    AssignWordsKept();
    AssignLayoutDropped();
  }

  lemma AssignWordsKept()
    ensures DropLayout([AssignTokens[0], AssignTokens[1], AssignTokens[2]]) == [AssignTokens[0], AssignTokens[1], AssignTokens[2]]
  {
    var words := [AssignTokens[0], AssignTokens[1], AssignTokens[2]];
    assert forall i :: 0 <= i < |words| ==> !IsLayout(words[i]);
    DropLayoutIdentity(words);
  }

  lemma AssignLayoutDropped()
    ensures DropLayout([AssignTokens[3], AssignTokens[4]]) == []
  {
    var layout := [AssignTokens[3], AssignTokens[4]];
    assert layout[1..] == [AssignTokens[4]];
    assert [AssignTokens[4]][1..] == [];
  }

  /** Input preparation then appends the end marker. */
  lemma AssignBuffer()
    ensures PrepareInput(AssignTokens) == AssignBuf
  {
    AssignKeptTokens();
  }

  /** The configurations the parse of `x = 5` passes through. */
  const AssignAfterId: Config := Config([St(0), Sym("ID"), St(5)], 1, [StepRec(0, "ID", Shift(5), [St(0)])])

  const AssignAfterEq: Config := Config(
    [St(0), Sym("ID"), St(5), Sym("="), St(10)], 2,
    AssignAfterId.trace + [StepRec(5, "=", Shift(10), AssignAfterId.stack)])

  const AssignOutcome: RunResult := RunResult(
    Rejected(ActionMiss(10, "NUMBER")),
    AssignAfterEq.(trace := AssignAfterEq.trace + [ActionMissRec(10, "NUMBER")]))

  /** State 0 shifts the identifier into state 5. */
  lemma AssignShiftId()
    ensures Step(HandBuilt, AssignBuf, Config(InitialStack, 0, [])) == Continue(AssignAfterId)
  {
    assert TerminalOf(AssignBuf[0]) == "ID";
    assert HandBuiltAction[(0, "ID")] == Shift(5);
    ShiftStep(HandBuilt, AssignBuf, Config(InitialStack, 0, []));
  }

  /** State 5 shifts "=" into state 10. */
  lemma AssignShiftEq()
    ensures Step(HandBuilt, AssignBuf, AssignAfterId) == Continue(AssignAfterEq)
  {
    assert TerminalOf(AssignBuf[1]) == "=";
    assert HandBuiltAction[(5, "=")] == Shift(10);
    ShiftStep(HandBuilt, AssignBuf, AssignAfterId);
  }

  /** State 10 has no entry for NUMBER. */
  lemma AssignMissNumber()
    ensures Step(HandBuilt, AssignBuf, AssignAfterEq) == Halt(AssignOutcome.outcome, AssignOutcome.final)
  {
    assert TerminalOf(AssignBuf[2]) == "NUMBER";
    HandBuiltActionStates();
    ActionMissStep(HandBuilt, AssignBuf, AssignAfterEq);
  }

  /** The two shifts and the miss on that buffer. */
  lemma AssignmentRun()
    ensures Run(HandBuilt, AssignBuf, Config(InitialStack, 0, []), 3) == AssignOutcome
  {
    AssignShiftId();
    AssignShiftEq();
    AssignMissNumber();
  }

  /** On `x = 5` the hand-built tables shift the identifier and "=", then find no
      entry for NUMBER in state 10: the parse returns False with the cursor on "5". */
  lemma AssignmentRejected(fuel: nat)
    requires fuel >= 3
    ensures Parse(HandBuilt, AssignTokens, fuel) == AssignOutcome
  {
    AssignBuffer();
    AssignmentRun();
    assert AssignOutcome.outcome.Rejected?;
    ParseHaltsFor(HandBuilt, AssignTokens, AssignBuf, 3, fuel, AssignOutcome);
  }

  /** A parse that halted within some fuel on the prepared buffer gives the same
      result with any more fuel. */
  lemma ParseHaltsFor(t: Tables, tokens: seq<Token>, buf: seq<Token>, fuel: nat, more: nat, r: RunResult)
    requires PrepareInput(tokens) == buf && fuel <= more
    requires Run(t, buf, Config(InitialStack, 0, []), fuel) == r && r.outcome != OutOfFuel
    ensures Parse(t, tokens, more) == r
  {
    RunFuelMonotone(t, buf, Config(InitialStack, 0, []), fuel, more);
  }
}

=== FILE: LrParser.dfy ===
/**
  The LR stack automaton (lr_parser.py, `LRParser.parse`). The Python stack mixes
  integer states and string symbols; here it is a sequence of `Entry` values.
  The loop body is `Step`; the loop is `Run`, bounded by fuel because the source
  guarantees termination for no table in general. The free-text trace messages
  are tagged records.
 */
module LrParser {
  import opened Tokens
  import opened LrAction
  import opened LrTables

  /** One stack cell: a state number or a grammar symbol. */
  datatype Entry = St(state: nat) | Sym(symbol: string)

  /** One trace line. `StepRec` is written before the chosen action changes the
      stack and carries the stack as it was; the others report how a step ended. */
  datatype TraceRec =
    | StepRec(state: nat, terminal: string, action: LRAction, stack: seq<Entry>)
    | ActionMissRec(state: nat, terminal: string)
    | GotoMissRec(state: nat, lhs: string)
    | ReduceRec(production: nat)
    | AcceptedRec
    | ErrorActionRec(state: nat)

  /** The ways `parse` returns False. */
  datatype Rejection =
    | ActionMiss(state: nat, terminal: string)
    | GotoMiss(state: nat, lhs: string)
    | ErrorAction(state: nat)

  /** The ways `parse` raises instead of returning: indexing past the input
      buffer, or a Reduce naming a production that does not exist. */
  datatype Fault = CursorPastEnd(ip: nat) | NoSuchProduction(production: nat)

  datatype Outcome = Accepted | Rejected(why: Rejection) | Raised(fault: Fault) | OutOfFuel

  /** The automaton's mutable state: stack, input cursor and trace so far. */
  datatype Config = Config(stack: seq<Entry>, ip: nat, trace: seq<TraceRec>)

  datatype StepResult = Continue(next: Config) | Halt(outcome: Outcome, last: Config)

  datatype RunResult = RunResult(outcome: Outcome, final: Config)

  /** Non-empty, a state on top, and states and symbols alternating below it:
      the shape every iteration of the loop starts from. */
  predicate Alternating(s: seq<Entry>)
  {
    |s| >= 1 && forall i :: 0 <= i < |s| ==> (s[i].St? <==> i % 2 == (|s| - 1) % 2)
  }

  /** The well-formed shape: alternating with odd length, so the bottom cell is a
      state (the sentinel) and the states sit exactly at the even positions. A
      reduce that underflows loses the sentinel and leaves an even-length stack. */
  predicate Aligned(s: seq<Entry>)
  {
    Alternating(s) && |s| % 2 == 1
  }

  function TopState(s: seq<Entry>): nat
    requires Alternating(s)
  {
    s[|s| - 1].state
  }

  /** Popping n cells one at a time, each pop skipped once the stack is empty. */
  function PopUpTo(s: seq<Entry>, n: nat): (r: seq<Entry>)
    ensures |r| == if n <= |s| then |s| - n else 0
    ensures r <= s
  {
    if n <= |s| then s[..|s| - n] else []
  }

  /** Removing an even number of cells keeps the alternation (or empties the stack). */
  lemma PopEvenKeepsAlternating(s: seq<Entry>, k: nat)
    requires Alternating(s)
    ensures PopUpTo(s, 2 * k) == [] || Alternating(PopUpTo(s, 2 * k))
  {
  }

  /** Pushing a symbol and a state keeps the alternation, even onto an empty stack. */
  lemma PushPairKeepsAlternating(s: seq<Entry>, x: string, q: nat)
    requires s == [] || Alternating(s)
    ensures Alternating(s + [Sym(x), St(q)])
  {
  }

  /** The state the GOTO lookup is made from after popping k symbol/state pairs
      off s: the state cell 2k below the top, or 0 when the pops emptied the stack. */
  function ExposedState(s: seq<Entry>, k: nat): (q: nat)
    requires Alternating(s)
    ensures 2 * k < |s| ==> s[|s| - 1 - 2 * k] == St(q)
    ensures 2 * k >= |s| ==> q == 0
  {
    var popped := PopUpTo(s, 2 * k);
    PopEvenKeepsAlternating(s, k);
    if popped == [] then 0 else TopState(popped)
  }

  /** `_record_trace`: appends one record, leaving stack and cursor alone. */
  function Record(c: Config, rec: TraceRec): Config
  {
    c.(trace := c.trace + [rec])
  }

  /** The terminal of the token under the cursor. */
  function CurrentTerminal(buf: seq<Token>, c: Config): string
    requires c.ip < |buf|
  {
    TerminalOf(buf[c.ip])
  }

  /** The trace ends with an Accept decision followed by the acceptance record. */
  predicate EndsWithAccept(tr: seq<TraceRec>)
  {
    |tr| >= 2 && tr[|tr| - 1] == AcceptedRec && tr[|tr| - 2].StepRec? && tr[|tr| - 2].action == Accept
  }

  /** The last trace record tells how the parse ended: acceptance after an Accept
      decision, or a record naming the same state and symbol as the rejection. */
  predicate TraceReports(o: Outcome, tr: seq<TraceRec>)
  {
    match o
    case Accepted => EndsWithAccept(tr)
    case Rejected(ActionMiss(s, x)) => |tr| >= 1 && tr[|tr| - 1] == ActionMissRec(s, x)
    case Rejected(GotoMiss(s, a)) => |tr| >= 2 && tr[|tr| - 1] == GotoMissRec(s, a) && tr[|tr| - 2].StepRec?
    case Rejected(ErrorAction(s)) => EndsWithErrorAction(tr, s)
    case Raised(_) => true
    case OutOfFuel => true
  }

  predicate EndsWithErrorAction(tr: seq<TraceRec>, s: nat)
  {
    |tr| >= 2 && tr[|tr| - 1] == ErrorActionRec(s) && tr[|tr| - 2].StepRec? && tr[|tr| - 2].action == Error
  }

  /** One iteration of the `while True` loop of `parse`. */
  function Step(t: Tables, buf: seq<Token>, c: Config): (r: StepResult)
    requires Alternating(c.stack)
    ensures r.Continue? ==> Alternating(r.next.stack) && c.trace < r.next.trace
    ensures r.Continue? ==> r.next.ip == c.ip + 1 || (r.next.ip == c.ip && |r.next.trace| == |c.trace| + 2)
    ensures r.Halt? ==> c.trace <= r.last.trace && r.last.ip == c.ip && r.outcome != OutOfFuel
    ensures r.Halt? && !r.outcome.Raised? ==> |r.last.trace| > |c.trace|
    ensures r.Halt? ==> TraceReports(r.outcome, r.last.trace)
  {
    var state := TopState(c.stack);
    if c.ip >= |buf| then Halt(Raised(CursorPastEnd(c.ip)), c)
    else
      var terminal := CurrentTerminal(buf, c);
      if (state, terminal) !in t.action then
        Halt(Rejected(ActionMiss(state, terminal)), Record(c, ActionMissRec(state, terminal)))
      else
        var a := t.action[(state, terminal)];
        var c1 := Record(c, StepRec(state, terminal, a, c.stack));
        match a
        case Shift(target) =>
          PushPairKeepsAlternating(c.stack, terminal, target);
          Continue(Config(c.stack + [Sym(terminal), St(target)], c.ip + 1, c1.trace))
        case Reduce(n) =>
          if n >= |t.productions| then Halt(Raised(NoSuchProduction(n)), c1)
          else
            var prod := t.productions[n];
            var popped := PopUpTo(c.stack, 2 * |prod.rhs|);
            PopEvenKeepsAlternating(c.stack, |prod.rhs|);
            var exposed := ExposedState(c.stack, |prod.rhs|);
            if (exposed, prod.lhs) !in t.goto then
              Halt(Rejected(GotoMiss(exposed, prod.lhs)), Config(popped, c.ip, c1.trace + [GotoMissRec(exposed, prod.lhs)]))
            else
              var pushed := popped + [Sym(prod.lhs), St(t.goto[(exposed, prod.lhs)])];
              PushPairKeepsAlternating(popped, prod.lhs, t.goto[(exposed, prod.lhs)]);
              Continue(Config(pushed, c.ip, c1.trace + [ReduceRec(n)]))
        case Accept =>
          Halt(Accepted, Record(c1, AcceptedRec))
        case Error =>
          Halt(Rejected(ErrorAction(state)), Record(c1, ErrorActionRec(state)))
  }


  /** The loop, run for at most `fuel` iterations. */
  function Run(t: Tables, buf: seq<Token>, c: Config, fuel: nat): (r: RunResult)
    requires Alternating(c.stack)
    ensures c.trace <= r.final.trace
    ensures c.ip <= r.final.ip
    ensures c.ip <= |buf| ==> r.final.ip <= |buf|
    ensures r.outcome == OutOfFuel ==> Alternating(r.final.stack)
    ensures TraceReports(r.outcome, r.final.trace)
    decreases fuel
  {
    if fuel == 0 then RunResult(OutOfFuel, c)
    else
      match Step(t, buf, c)
      case Halt(o, last) => RunResult(o, last)
      case Continue(next) => Run(t, buf, next, fuel - 1)
  }

  /** The stack `parse` starts from: the sentinel state 0. */
  const InitialStack: seq<Entry> := [St(0)]

  /** `parse(tokens)`: prepare the buffer, start from state 0 with an empty trace, run. */
  function Parse(t: Tables, tokens: seq<Token>, fuel: nat): (r: RunResult)
    ensures TraceReports(r.outcome, r.final.trace)
    ensures r.final.ip <= |PrepareInput(tokens)|
  {
    Run(t, PrepareInput(tokens), Config(InitialStack, 0, []), fuel)
  }

  /** What `parse` returns when it returns: True exactly on acceptance. */
  function Verdict(o: Outcome): bool
  {
    o.Accepted?
  }
}

=== FILE: LrSafety.dfy ===
/**
  Properties of the LR automaton that hold for every table: what each kind of
  step does to the stack, cursor and trace, how runs depend on fuel and on the
  trace they start with, and table conditions under which the faults the
  source can raise (cursor past the end, unknown production) and the silent
  reduce underflow never happen.
 */
module LrSafety {
  import opened Tokens
  import opened LrAction
  import opened LrTables
  import opened LrParser

  /** The ACTION entry the step at c consults, when the cursor is in range. */
  predicate HasAction(t: Tables, buf: seq<Token>, c: Config)
    requires Alternating(c.stack)
  {
    c.ip < |buf| && (TopState(c.stack), CurrentTerminal(buf, c)) in t.action
  }

  function ActionAt(t: Tables, buf: seq<Token>, c: Config): LRAction
    requires Alternating(c.stack) && HasAction(t, buf, c)
  {
    t.action[(TopState(c.stack), CurrentTerminal(buf, c))]
  }

  // ---------------------------------------------------------------------------
  // One step

  /** Shift pushes exactly the terminal and the target state, advances the cursor
      by one, and logs one record holding the stack as it was before. */
  lemma ShiftStep(t: Tables, buf: seq<Token>, c: Config)
    requires Alternating(c.stack) && HasAction(t, buf, c) && ActionAt(t, buf, c).Shift?
    ensures var x := CurrentTerminal(buf, c);
            var a := ActionAt(t, buf, c);
            Step(t, buf, c) == Continue(Config(
              c.stack + [Sym(x), St(a.target)],
              c.ip + 1,
              c.trace + [StepRec(TopState(c.stack), x, a, c.stack)]))
    ensures Aligned(c.stack) ==> Aligned(Step(t, buf, c).next.stack)
  {
  }

  /** A reduce of a k-symbol production on a stack of at least 2k+1 cells removes
      exactly 2k cells, pushes the left-hand side and the GOTO state, leaves the
      cursor alone and logs the decision and then the reduction. */
  lemma ReduceStep(t: Tables, buf: seq<Token>, c: Config)
    requires Alternating(c.stack) && HasAction(t, buf, c) && ActionAt(t, buf, c).Reduce?
    requires ActionAt(t, buf, c).production < |t.productions|
    requires 2 * |t.productions[ActionAt(t, buf, c).production].rhs| < |c.stack|
    ensures var n := ActionAt(t, buf, c).production;
            var prod := t.productions[n];
            var rest := c.stack[..|c.stack| - 2 * |prod.rhs|];
            Alternating(rest) &&
            var key := (TopState(rest), prod.lhs);
            && (key in t.goto ==> Step(t, buf, c) == Continue(Config(
                  rest + [Sym(prod.lhs), St(t.goto[key])],
                  c.ip,
                  c.trace + [StepRec(TopState(c.stack), CurrentTerminal(buf, c), Reduce(n), c.stack), ReduceRec(n)])))
            && (key !in t.goto ==> Step(t, buf, c) == Halt(Rejected(GotoMiss(key.0, prod.lhs)), Config(
                  rest,
                  c.ip,
                  c.trace + [StepRec(TopState(c.stack), CurrentTerminal(buf, c), Reduce(n), c.stack), GotoMissRec(key.0, prod.lhs)])))
    ensures Step(t, buf, c).Continue? ==>
              |Step(t, buf, c).next.stack| == |c.stack| - 2 * |t.productions[ActionAt(t, buf, c).production].rhs| + 2
    ensures Aligned(c.stack) && Step(t, buf, c).Continue? ==> Aligned(Step(t, buf, c).next.stack)
  {
  }

  /** A reduce that would pop every cell of the stack, or more, empties it and
      looks GOTO up from state 0 instead of failing. The cursor stays, and the
      decision is logged before the reduction or the GOTO miss. */
  lemma ReduceUnderflowStep(t: Tables, buf: seq<Token>, c: Config)
    requires Alternating(c.stack) && HasAction(t, buf, c) && ActionAt(t, buf, c).Reduce?
    requires ActionAt(t, buf, c).production < |t.productions|
    requires 2 * |t.productions[ActionAt(t, buf, c).production].rhs| >= |c.stack|
    ensures var n := ActionAt(t, buf, c).production;
            var prod := t.productions[n];
            var decision := StepRec(TopState(c.stack), CurrentTerminal(buf, c), Reduce(n), c.stack);
            && ((0, prod.lhs) in t.goto ==>
                  Step(t, buf, c) == Continue(Config(
                    [Sym(prod.lhs), St(t.goto[(0, prod.lhs)])],
                    c.ip,
                    c.trace + [decision, ReduceRec(n)])))
            && ((0, prod.lhs) !in t.goto ==>
                  Step(t, buf, c) == Halt(Rejected(GotoMiss(0, prod.lhs)), Config(
                    [],
                    c.ip,
                    c.trace + [decision, GotoMissRec(0, prod.lhs)])))
  {
  }

  /** A missing ACTION entry rejects with that state and terminal, leaves the
      stack and cursor as they were and adds exactly one record. */
  lemma ActionMissStep(t: Tables, buf: seq<Token>, c: Config)
    requires Alternating(c.stack) && c.ip < |buf| && !HasAction(t, buf, c)
    ensures var s := TopState(c.stack);
            var x := CurrentTerminal(buf, c);
            Step(t, buf, c) == Halt(Rejected(ActionMiss(s, x)), Config(c.stack, c.ip, c.trace + [ActionMissRec(s, x)]))
  {
  }

  /** An explicit ERROR entry rejects like a missing one, after logging the decision. */
  lemma ErrorActionStep(t: Tables, buf: seq<Token>, c: Config)
    requires Alternating(c.stack) && HasAction(t, buf, c) && ActionAt(t, buf, c).Error?
    ensures var s := TopState(c.stack);
            Step(t, buf, c) == Halt(Rejected(ErrorAction(s)), Config(c.stack, c.ip,
              c.trace + [StepRec(s, CurrentTerminal(buf, c), Error, c.stack), ErrorActionRec(s)]))
  {
  }

  /** A step accepts if and only if the entry consulted is ACCEPT. */
  lemma AcceptStepIff(t: Tables, buf: seq<Token>, c: Config)
    requires Alternating(c.stack)
    ensures (Step(t, buf, c).Halt? && Step(t, buf, c).outcome == Accepted) <==>
            (HasAction(t, buf, c) && ActionAt(t, buf, c) == Accept)
    ensures HasAction(t, buf, c) && ActionAt(t, buf, c) == Accept ==>
              Step(t, buf, c) == Halt(Accepted, Config(c.stack, c.ip,
                c.trace + [StepRec(TopState(c.stack), CurrentTerminal(buf, c), Accept, c.stack), AcceptedRec]))
  {
  }

  /** Reading past the buffer raises before anything is logged, and only then. */
  lemma CursorPastEndStep(t: Tables, buf: seq<Token>, c: Config)
    requires Alternating(c.stack)
    ensures Step(t, buf, c).Halt? && Step(t, buf, c).outcome.Raised? && Step(t, buf, c).outcome.fault.CursorPastEnd?
            <==> c.ip >= |buf|
    ensures c.ip >= |buf| ==> Step(t, buf, c) == Halt(Raised(CursorPastEnd(c.ip)), c)
  {
  }

  // ---------------------------------------------------------------------------
  // Whole runs

  /** Once a run halts within some fuel, more fuel changes nothing. */
  lemma {:induction false} RunFuelMonotone(t: Tables, buf: seq<Token>, c: Config, fuel: nat, more: nat)
    requires Alternating(c.stack)
    requires fuel <= more
    requires Run(t, buf, c, fuel).outcome != OutOfFuel
    ensures Run(t, buf, c, more) == Run(t, buf, c, fuel)
    decreases fuel
  {
    if Step(t, buf, c).Continue? {
      RunFuelMonotone(t, buf, Step(t, buf, c).next, fuel - 1, more - 1);
    }
  }

  /** A step never reads the trace: starting from a longer trace only prefixes it. */
  lemma StepTraceFrame(t: Tables, buf: seq<Token>, c: Config)
    requires Alternating(c.stack)
    ensures var s0 := Step(t, buf, c.(trace := []));
            var s := Step(t, buf, c);
            && (s.Continue? <==> s0.Continue?)
            && (s.Continue? ==> s.next == s0.next.(trace := c.trace + s0.next.trace))
            && (s.Halt? ==> s.outcome == s0.outcome && s.last == s0.last.(trace := c.trace + s0.last.trace))
  {
  }

  /** Two run results agree except that the first trace carries `prefix` in front. */
  predicate SameRunAfter(prefix: seq<TraceRec>, r: RunResult, q: RunResult)
  {
    && r.outcome == q.outcome
    && r.final.stack == q.final.stack
    && r.final.ip == q.final.ip
    && r.final.trace == prefix + q.final.trace
  }

  lemma SameRunAfterCompose(c: Config, n: Config, n0: Config, r: RunResult, r0: RunResult, rc: RunResult)
    requires n.trace == c.trace + n0.trace
    requires SameRunAfter(n.trace, r, rc) && SameRunAfter(n0.trace, r0, rc)
    ensures SameRunAfter(c.trace, r, r0)
  {
  }

  /** A run never reads the trace it starts with (`parse` empties it first):
      starting from a longer trace only prefixes the same records, with the same
      outcome, stack and cursor. */
  lemma {:induction false} RunTraceFrame(t: Tables, buf: seq<Token>, c: Config, fuel: nat)
    requires Alternating(c.stack)
    ensures SameRunAfter(c.trace, Run(t, buf, c, fuel), Run(t, buf, c.(trace := []), fuel))
    decreases fuel
  {
    var c0 := c.(trace := []);
    if fuel > 0 {
      StepTraceFrame(t, buf, c);
      var s, s0 := Step(t, buf, c), Step(t, buf, c0);
      if s.Continue? {
        var n, n0 := s.next, s0.next;
        RunTraceFrame(t, buf, n, fuel - 1);
        RunTraceFrame(t, buf, n0, fuel - 1);
        assert n.(trace := []) == n0.(trace := []);
        SameRunAfterCompose(c, n, n0, Run(t, buf, n, fuel - 1), Run(t, buf, n0, fuel - 1), Run(t, buf, n.(trace := []), fuel - 1));
      }
    }
  }

  /** If no entry shifts on "$" and the buffer ends with the end marker, the
      cursor never runs past it, so the IndexError of the source cannot occur. */
  lemma {:induction false} NoCursorOverrun(t: Tables, buf: seq<Token>, c: Config, fuel: nat)
    requires Alternating(c.stack) && NoShiftOnEnd(t)
    requires |buf| >= 1 && TerminalOf(buf[|buf| - 1]) == EndTerminal
    requires c.ip < |buf|
    ensures !(Run(t, buf, c, fuel).outcome.Raised? && Run(t, buf, c, fuel).outcome.fault.CursorPastEnd?)
    ensures Run(t, buf, c, fuel).final.ip < |buf|
    decreases fuel
  {
    if fuel > 0 {
      var s := Step(t, buf, c);
      if s.Continue? {
        if HasAction(t, buf, c) && ActionAt(t, buf, c).Shift? {
          assert CurrentTerminal(buf, c) != EndTerminal;
        }
        NoCursorOverrun(t, buf, s.next, fuel - 1);
      }
    }
  }

  /** If every Reduce names an existing production, no run raises on an unknown one. */
  lemma {:induction false} NoUnknownProduction(t: Tables, buf: seq<Token>, c: Config, fuel: nat)
    requires Alternating(c.stack) && ReducesInRange(t)
    ensures !Run(t, buf, c, fuel).outcome.Raised? || !Run(t, buf, c, fuel).outcome.fault.NoSuchProduction?
    decreases fuel
  {
    if fuel > 0 {
      var s := Step(t, buf, c);
      if s.Continue? {
        NoUnknownProduction(t, buf, s.next, fuel - 1);
      } else if HasAction(t, buf, c) && ActionAt(t, buf, c).Reduce? {
        assert (TopState(c.stack), CurrentTerminal(buf, c)) in t.action;
      }
    }
  }

  /** The trace's last record is the acceptance record. */
  predicate EndsAccepted(tr: seq<TraceRec>)
  {
    |tr| > 0 && tr[|tr| - 1] == AcceptedRec
  }

  /** A step that does not accept never leaves the acceptance record last. */
  lemma StepAcceptRecorded(t: Tables, buf: seq<Token>, c: Config)
    requires Alternating(c.stack) && !EndsAccepted(c.trace)
    ensures Step(t, buf, c).Continue? ==> !EndsAccepted(Step(t, buf, c).next.trace)
    ensures Step(t, buf, c).Halt? ==>
              (Verdict(Step(t, buf, c).outcome) <==> EndsAccepted(Step(t, buf, c).last.trace))
  {
  }

  /** `parse` returns True exactly when its last trace record is the acceptance
      record: every other way out leaves some other record last. */
  lemma {:induction false} RunVerdictIffAcceptRecorded(t: Tables, buf: seq<Token>, c: Config, fuel: nat)
    requires Alternating(c.stack) && !EndsAccepted(c.trace)
    ensures Verdict(Run(t, buf, c, fuel).outcome) <==> EndsAccepted(Run(t, buf, c, fuel).final.trace)
    decreases fuel
  {
    if fuel > 0 {
      StepAcceptRecorded(t, buf, c);
      if Step(t, buf, c).Continue? {
        RunVerdictIffAcceptRecorded(t, buf, Step(t, buf, c).next, fuel - 1);
      }
    }
  }

  /** The same for `parse`, which starts from an empty trace. */
  lemma ParseVerdictIffAcceptRecorded(t: Tables, tokens: seq<Token>, fuel: nat)
    ensures Verdict(Parse(t, tokens, fuel).outcome) <==> EndsAccepted(Parse(t, tokens, fuel).final.trace)
  {
    RunVerdictIffAcceptRecorded(t, PrepareInput(tokens), Config(InitialStack, 0, []), fuel);
  }

  /** The boolean `parse` returns: True exactly when its trace ends with the
      acceptance record, and only by accepting. */
  function ParseVerdict(t: Tables, tokens: seq<Token>, fuel: nat): (v: bool)
    ensures v <==> EndsAccepted(Parse(t, tokens, fuel).final.trace)
    ensures v ==> Parse(t, tokens, fuel).outcome == Accepted
  {
    ParseVerdictIffAcceptRecorded(t, tokens, fuel);
    Verdict(Parse(t, tokens, fuel).outcome)
  }

  // ---------------------------------------------------------------------------
  // Reduce underflow

  /** The step at c is a reduce that pops every cell of the stack, sentinel
      included, or tries to pop more. */
  predicate UnderflowsAt(t: Tables, buf: seq<Token>, c: Config)
    requires Alternating(c.stack)
  {
    && HasAction(t, buf, c)
    && ActionAt(t, buf, c).Reduce?
    && ActionAt(t, buf, c).production < |t.productions|
    && 2 * |t.productions[ActionAt(t, buf, c).production].rhs| >= |c.stack|
  }

  /** No step among the next `fuel` steps of the run from c underflows. */
  predicate NeverUnderflows(t: Tables, buf: seq<Token>, c: Config, fuel: nat)
    requires Alternating(c.stack)
    decreases fuel
  {
    fuel == 0 ||
    (!UnderflowsAt(t, buf, c) &&
     (Step(t, buf, c).Continue? ==> NeverUnderflows(t, buf, Step(t, buf, c).next, fuel - 1)))
  }

  /** A depth bound for states: state q never appears with fewer than depth[q]
      symbol/state pairs beneath it. The table respects the bound when the
      sentinel has depth 0, a shift or a GOTO raises the depth by at most one,
      and a reduce at state q pops no more pairs than depth[q]. */
  predicate DepthBounded(t: Tables, depth: map<nat, nat>)
  {
    && 0 in depth && depth[0] == 0
    && (forall key :: key in t.action && key.0 in depth ==> ActionRespectsDepth(t, depth, key.0, t.action[key]))
    && (forall key :: key in t.goto && key.0 in depth ==> t.goto[key] in depth && depth[t.goto[key]] <= depth[key.0] + 1)
  }

  predicate ActionRespectsDepth(t: Tables, depth: map<nat, nat>, q: nat, a: LRAction)
    requires q in depth
  {
    match a
    case Shift(target) => target in depth && depth[target] <= depth[q] + 1
    case Reduce(n) => n < |t.productions| && |t.productions[n].rhs| <= depth[q]
    case Accept => true
    case Error => true
  }

  /** Every state cell of an aligned stack has at least its depth in pairs beneath it. */
  predicate DepthInv(s: seq<Entry>, depth: map<nat, nat>)
  {
    Aligned(s) && forall i :: 0 <= i < |s| && s[i].St? ==> s[i].state in depth && depth[s[i].state] <= i / 2
  }

  /** Pushing a symbol and a state no deeper than one more than the old top keeps the invariant. */
  lemma PushKeepsDepthInv(s: seq<Entry>, depth: map<nat, nat>, x: string, target: nat)
    requires DepthInv(s, depth)
    requires target in depth && depth[target] <= depth[TopState(s)] + 1
    ensures DepthInv(s + [Sym(x), St(target)], depth)
  {
    var next := s + [Sym(x), St(target)];
    assert s[|s| - 1].St?;
    assert forall i :: 0 <= i < |s| ==> next[i] == s[i];
  }

  /** Popping k pairs below a top state whose depth is at least k leaves a
      non-empty stack that still meets the invariant. */
  lemma PopKeepsDepthInv(s: seq<Entry>, depth: map<nat, nat>, k: nat)
    requires DepthInv(s, depth) && k <= depth[TopState(s)]
    ensures 2 * k < |s| && DepthInv(s[..|s| - 2 * k], depth)
  {
    assert s[|s| - 1].St?;
    var rest := s[..|s| - 2 * k];
    assert forall i :: 0 <= i < |rest| ==> rest[i] == s[i];
  }

  /** Under a depth-bounded table a step from a stack meeting the depth invariant
      does not underflow and leads to a stack meeting it again. */
  lemma StepKeepsDepthInv(t: Tables, depth: map<nat, nat>, buf: seq<Token>, c: Config)
    requires DepthBounded(t, depth) && DepthInv(c.stack, depth)
    ensures !UnderflowsAt(t, buf, c)
    ensures Step(t, buf, c).Continue? ==> DepthInv(Step(t, buf, c).next.stack, depth)
  {
    if HasAction(t, buf, c) {
      if ActionAt(t, buf, c).Shift? {
        ShiftKeepsDepthInv(t, depth, buf, c);
      } else if ActionAt(t, buf, c).Reduce? {
        ReduceKeepsDepthInv(t, depth, buf, c);
      }
    }
  }

  lemma ShiftKeepsDepthInv(t: Tables, depth: map<nat, nat>, buf: seq<Token>, c: Config)
    requires DepthBounded(t, depth) && DepthInv(c.stack, depth)
    requires HasAction(t, buf, c) && ActionAt(t, buf, c).Shift?
    ensures DepthInv(Step(t, buf, c).next.stack, depth)
  {
    assert c.stack[|c.stack| - 1].St?;
    var key := (TopState(c.stack), CurrentTerminal(buf, c));
    var a := t.action[key];
    assert ActionRespectsDepth(t, depth, key.0, a);
    ShiftStep(t, buf, c);
    PushKeepsDepthInv(c.stack, depth, key.1, a.target);
  }

  lemma ReduceKeepsDepthInv(t: Tables, depth: map<nat, nat>, buf: seq<Token>, c: Config)
    requires DepthBounded(t, depth) && DepthInv(c.stack, depth)
    requires HasAction(t, buf, c) && ActionAt(t, buf, c).Reduce?
    ensures !UnderflowsAt(t, buf, c)
    ensures Step(t, buf, c).Continue? ==> DepthInv(Step(t, buf, c).next.stack, depth)
  {
    assert c.stack[|c.stack| - 1].St?;
    var key := (TopState(c.stack), CurrentTerminal(buf, c));
    var a := t.action[key];
    assert ActionRespectsDepth(t, depth, key.0, a);
    var prod := t.productions[a.production];
    PopKeepsDepthInv(c.stack, depth, |prod.rhs|);
    ReduceStep(t, buf, c);
    var rest := c.stack[..|c.stack| - 2 * |prod.rhs|];
    if (TopState(rest), prod.lhs) in t.goto {
      PushKeepsDepthInv(rest, depth, prod.lhs, t.goto[(TopState(rest), prod.lhs)]);
    }
  }

  /** Under a depth-bounded table, no run from a stack meeting the depth
      invariant (the initial stack does) ever underflows. */
  lemma {:induction false} DepthBoundedNeverUnderflows(t: Tables, depth: map<nat, nat>, buf: seq<Token>, c: Config, fuel: nat)
    requires DepthBounded(t, depth) && DepthInv(c.stack, depth)
    ensures NeverUnderflows(t, buf, c, fuel)
    decreases fuel
  {
    if fuel > 0 {
      StepKeepsDepthInv(t, depth, buf, c);
      if Step(t, buf, c).Continue? {
        DepthBoundedNeverUnderflows(t, depth, buf, Step(t, buf, c).next, fuel - 1);
      }
    }
  }

  /** The initial stack meets the depth invariant of every depth-bounded table. */
  lemma InitialDepthInv(t: Tables, depth: map<nat, nat>)
    requires DepthBounded(t, depth)
    ensures DepthInv(InitialStack, depth)
  {
  }
}

=== FILE: LrTables.dfy ===
/**
  The production list and the ACTION / GOTO decision tables of the LR automaton
  (lr_parser.py, `_create_productions`, `_create_action_table`,
  `_create_goto_table`). The automaton is defined against `Tables` only; the
  hand-built constants below are one instance, deliberately partial.
 */
module LrTables {
  import opened LrAction

  /** A grammar production: its number, left-hand nonterminal and right-hand symbols
      (the empty sequence is an epsilon-production). */
  datatype Production = Production(id: nat, lhs: string, rhs: seq<string>)

  /** The productions plus the two lookup maps keyed by (state, symbol). */
  datatype Tables = Tables(
    productions: seq<Production>,
    action: map<(nat, string), LRAction>,
    goto: map<(nat, string), nat>)

  /** The 22 productions of the simplified grammar, numbered from 0. */
  const HandBuiltProductions: seq<Production> := [
    Production(0, "S'", ["program"]),
    Production(1, "program", ["stmt_list"]),
    Production(2, "stmt_list", ["stmt", "stmt_list"]),
    Production(3, "stmt_list", ["stmt"]),
    Production(4, "stmt", ["assign"]),
    Production(5, "stmt", ["print"]),
    Production(6, "stmt", ["if"]),
    Production(7, "stmt", ["while"]),
    Production(8, "stmt", ["for"]),
    Production(9, "assign", ["ID", "=", "expr"]),
    Production(10, "print", ["print", "(", "expr", ")"]),
    Production(11, "if", ["if", "expr", ":", "block"]),
    Production(12, "while", ["while", "expr", ":", "block"]),
    Production(13, "for", ["for", "ID", "in", "expr", ":", "block"]),
    Production(14, "block", ["INDENT", "stmt_list", "DEDENT"]),
    Production(15, "expr", ["expr", "+", "term"]),
    Production(16, "expr", ["term"]),
    Production(17, "term", ["term", "*", "factor"]),
    Production(18, "term", ["factor"]),
    Production(19, "factor", ["(", "expr", ")"]),
    Production(20, "factor", ["NUMBER"]),
    Production(21, "factor", ["ID"])
  ]

  /** The hand-built ACTION entries; every other (state, terminal) pair is absent. */
  const HandBuiltAction: map<(nat, string), LRAction> := map[
    (0, "ID") := Shift(5),
    (0, "print") := Shift(6),
    (0, "if") := Shift(7),
    (0, "while") := Shift(8),
    (0, "for") := Shift(9),
    (1, "$") := Accept,
    (2, "$") := Reduce(1),
    (3, "ID") := Shift(5),
    (3, "print") := Shift(6),
    (3, "if") := Shift(7),
    (3, "while") := Shift(8),
    (3, "for") := Shift(9),
    (3, "$") := Reduce(3),
    (3, "DEDENT") := Reduce(3),
    (5, "=") := Shift(10),
    (6, "(") := Shift(11)
  ]

  /** The hand-built GOTO entries. */
  const HandBuiltGoto: map<(nat, string), nat> := map[
    (0, "program") := 1,
    (0, "stmt_list") := 2,
    (0, "stmt") := 3,
    (0, "assign") := 4,
    (0, "print") := 4,
    (0, "if") := 4,
    (0, "while") := 4,
    (0, "for") := 4,
    (10, "expr") := 15,
    (11, "expr") := 16
  ]

  const HandBuilt: Tables := Tables(HandBuiltProductions, HandBuiltAction, HandBuiltGoto)

  /** Each production's number is its position, so `productions[n]` is production n. */
  predicate IdsAreIndices(ps: seq<Production>)
  {
    forall i :: 0 <= i < |ps| ==> ps[i].id == i
  }

  /** Every Reduce entry names a production that exists. */
  predicate ReducesInRange(t: Tables)
  {
    forall key :: key in t.action && t.action[key].Reduce? ==> t.action[key].production < |t.productions|
  }

  /** No entry shifts on the end-of-input terminal, so the cursor never passes the end marker. */
  predicate NoShiftOnEnd(t: Tables)
  {
    forall key :: key in t.action && key.1 == "$" ==> !t.action[key].Shift?
  }

  /** The only ACCEPT entries are on the end-of-input terminal. */
  predicate AcceptOnlyOnEnd(t: Tables)
  {
    forall key :: key in t.action && t.action[key].Accept? ==> key.1 == "$"
  }

  /** Production n of the hand-built list sits at position n. */
  lemma HandBuiltIdsAreIndices()
    ensures |HandBuilt.productions| == 22 && IdsAreIndices(HandBuilt.productions)
  {
  }

  /** The (state, terminal) pairs the hand-built ACTION table defines, one by one. */
  predicate HandBuiltActionKey(key: (nat, string))
  {
    || key == (0, "ID")
    || key == (0, "print")
    || key == (0, "if")
    || key == (0, "while")
    || key == (0, "for")
    || key == (1, "$")
    || key == (2, "$")
    || key == (3, "ID")
    || key == (3, "print")
    || key == (3, "if")
    || key == (3, "while")
    || key == (3, "for")
    || key == (3, "$")
    || key == (3, "DEDENT")
    || key == (5, "=")
    || key == (6, "(")
  }

  /** The hand-built ACTION table defines only the listed pairs ... */
  lemma HandBuiltActionKeys()
    ensures forall key :: key in HandBuiltAction ==> HandBuiltActionKey(key)
  {
  }

  /** ... which lie in states 0, 1, 2, 3, 5 and 6 only ... */
  lemma HandBuiltActionStates()
    ensures forall key :: key in HandBuiltAction ==> key.0 in {0, 1, 2, 3, 5, 6}
  {
    HandBuiltActionKeys();
  }

  /** ... with these entries: state 0 shifts the five statement starters ... */
  lemma HandBuiltState0Entries(key: (nat, string))
    requires key in HandBuiltAction && key.0 == 0
    ensures HandBuiltAction[key].Shift? && 5 <= HandBuiltAction[key].target <= 9 && key.1 != "$"
  {
    HandBuiltActionKeys();
    assert HandBuiltActionKey(key);
  }

  /** ... state 3 shifts them too and reduces by production 3 on "$" and DEDENT ... */
  lemma HandBuiltState3Entries(key: (nat, string))
    requires key in HandBuiltAction && key.0 == 3
    ensures || (HandBuiltAction[key].Shift? && 5 <= HandBuiltAction[key].target <= 9 && key.1 != "$")
            || (HandBuiltAction[key] == Reduce(3) && key.1 in {"$", "DEDENT"})
  {
    HandBuiltActionKeys();
    assert HandBuiltActionKey(key);
  }

  /** ... and the four remaining states have one entry each. */
  lemma HandBuiltOtherEntries(key: (nat, string))
    requires key in HandBuiltAction && key.0 != 0 && key.0 != 3
    ensures || (key == (1, "$") && HandBuiltAction[key] == Accept)
            || (key == (2, "$") && HandBuiltAction[key] == Reduce(1))
            || (key == (5, "=") && HandBuiltAction[key] == Shift(10))
            || (key == (6, "(") && HandBuiltAction[key] == Shift(11))
  {
    HandBuiltActionKeys();
    assert HandBuiltActionKey(key);
  }

  /** The (state, nonterminal) pairs the hand-built GOTO table defines, one by one. */
  predicate HandBuiltGotoKey(key: (nat, string))
  {
    || key == (0, "program")
    || key == (0, "stmt_list")
    || key == (0, "stmt")
    || key == (0, "assign")
    || key == (0, "print")
    || key == (0, "if")
    || key == (0, "while")
    || key == (0, "for")
    || key == (10, "expr")
    || key == (11, "expr")
  }

  /** The hand-built GOTO table defines only the listed pairs ... */
  lemma HandBuiltGotoKeys()
    ensures forall key :: key in HandBuiltGoto ==> HandBuiltGotoKey(key)
  {
  }

  /** ... with these target states. */
  lemma HandBuiltGotoValues()
    ensures HandBuiltGoto[(0, "program")] == 1
    ensures HandBuiltGoto[(0, "stmt_list")] == 2
    ensures HandBuiltGoto[(0, "stmt")] == 3
    ensures HandBuiltGoto[(0, "assign")] == 4
    ensures HandBuiltGoto[(0, "print")] == 4
    ensures HandBuiltGoto[(0, "if")] == 4
    ensures HandBuiltGoto[(0, "while")] == 4
    ensures HandBuiltGoto[(0, "for")] == 4
    ensures HandBuiltGoto[(10, "expr")] == 15
    ensures HandBuiltGoto[(11, "expr")] == 16
  {
  }

  /** Every hand-built Reduce names an existing production, none shifts on "$",
      and the single ACCEPT entry is the one at (1, "$"). */
  lemma HandBuiltActionIntegrity()
    ensures ReducesInRange(HandBuilt)
    ensures NoShiftOnEnd(HandBuilt)
    ensures AcceptOnlyOnEnd(HandBuilt)
    ensures forall key :: key in HandBuilt.action ==> (HandBuilt.action[key].Accept? <==> key == (1, "$"))
  {
    forall key | key in HandBuiltAction
      ensures HandBuiltAction[key].Reduce? ==> HandBuiltAction[key].production < 22
      ensures key.1 == "$" ==> !HandBuiltAction[key].Shift?
      ensures HandBuiltAction[key].Accept? <==> key == (1, "$")
    {
      if key.0 == 0 {
        HandBuiltState0Entries(key);
      } else if key.0 == 3 {
        HandBuiltState3Entries(key);
      } else {
        HandBuiltOtherEntries(key);
      }
    }
  }
}

=== FILE: Tokens.dfy ===
/**
  Lexical tokens as the LR automaton consumes them, the terminal classifier
  (lr_parser.py, `_get_terminal_symbol`) and the input preparation
  (`_prepare_input` plus the end marker appended by `parse`).

  The lexer that produces tokens is not part of this model: a token is just a
  kind and a literal payload. Source positions (line, column) are dropped
  because nothing in the automaton reads them.
 */
module Tokens {

  /** The token kinds the classifier names one by one, the layout kind that input
      preparation drops, and every other kind of the lexer by its enum name. */
  datatype TokenKind =
    | Identifier | Number | String | Print | If | While | For | In
    | Assign | Plus | Multiply | LParen | RParen | Colon | Indent | Dedent
    | Eof | Newline
    | Other(name: string)

  /** A token: its kind and its literal payload ("" when the token has none). */
  datatype Token = Token(kind: TokenKind, value: string)

  /** The enum name of a kind, which the classifier falls back to: an upper-case
      word for every kind of the lexer named here, the name itself otherwise. */
  function KindName(k: TokenKind): (r: string)
    ensures k.Other? ==> r == k.name
    ensures !k.Other? ==> r != [] && forall i :: 0 <= i < |r| ==> 'A' <= r[i] <= 'Z'
  {
    match k
    case Identifier => "IDENTIFIER"
    case Number => "NUMBER"
    case String => "STRING"
    case Print => "PRINT"
    case If => "IF"
    case While => "WHILE"
    case For => "FOR"
    case In => "IN"
    case Assign => "ASSIGN"
    case Plus => "PLUS"
    case Multiply => "MULTIPLY"
    case LParen => "LPAREN"
    case RParen => "RPAREN"
    case Colon => "COLON"
    case Indent => "INDENT"
    case Dedent => "DEDENT"
    case Eof => "EOF"
    case Newline => "NEWLINE"
    case Other(name) => name
  }

  /** Distinct kinds of the lexer have distinct enum names. */
  lemma KindNameInjective(k: TokenKind, k': TokenKind)
    requires !k.Other? && !k'.Other?
    ensures KindName(k) == KindName(k') ==> k == k'
  {
  }

  /** Reference table: the terminal the grammar uses for each explicitly listed kind. */
  const ListedTerminals: map<TokenKind, string> :=
    map[
      Identifier := "ID", Number := "NUMBER", String := "STRING",
      Print := "print", If := "if", While := "while", For := "for", In := "in",
      Assign := "=", Plus := "+", Multiply := "*",
      LParen := "(", RParen := ")", Colon := ":",
      Indent := "INDENT", Dedent := "DEDENT", Eof := "$"
    ]

  /** The end-of-input terminal. */
  const EndTerminal: string := "$"

  /** The terminal symbol a token stands for in the ACTION table. Listed kinds
      get their fixed terminal whatever their payload; any other kind falls back
      to its payload when that is non-empty and to its kind name otherwise. */
  function TerminalOf(t: Token): (r: string)
    ensures t.kind in ListedTerminals ==> r == ListedTerminals[t.kind]
    ensures t.kind !in ListedTerminals ==> r == if t.value != "" then t.value else KindName(t.kind)
  {
    match t.kind
    case Identifier => "ID"
    case Number => "NUMBER"
    case String => "STRING"
    case Print => "print"
    case If => "if"
    case While => "while"
    case For => "for"
    case In => "in"
    case Assign => "="
    case Plus => "+"
    case Multiply => "*"
    case LParen => "("
    case RParen => ")"
    case Colon => ":"
    case Indent => "INDENT"
    case Dedent => "DEDENT"
    case Eof => "$"
    case _ => if t.value != "" then t.value else KindName(t.kind)
  }

  /** The only kinds outside the reference table are the layout kind and the
      unnamed ones, and distinct listed kinds never share a terminal. */
  lemma ListedTerminalsShape(k: TokenKind, k': TokenKind)
    ensures k !in ListedTerminals <==> k.Newline? || k.Other?
    ensures k in ListedTerminals && k' in ListedTerminals && ListedTerminals[k] == ListedTerminals[k'] ==> k == k'
  {
  }

  /** Identifiers collapse to "ID" and the end token to "$", whatever the payload. */
  lemma PayloadIgnoredForListedKinds(t: Token, t': Token)
    requires t.kind == t'.kind && t.kind in ListedTerminals
    ensures TerminalOf(t) == TerminalOf(t')
    ensures t.kind == Identifier ==> TerminalOf(t) == "ID"
    ensures t.kind == Eof ==> TerminalOf(t) == EndTerminal
  {
  }

  /** Layout-only tokens: the ones input preparation removes. */
  predicate IsLayout(t: Token)
  {
    t.kind == Newline || t.kind == Eof
  }

  /** The caller's tokens without NEWLINE and EOF tokens, in their original order. */
  function DropLayout(ts: seq<Token>): (r: seq<Token>)
    ensures |r| <= |ts|
    ensures forall i :: 0 <= i < |r| ==> !IsLayout(r[i]) && r[i] in ts
    ensures forall t :: t in ts && !IsLayout(t) ==> t in r
  {
    if ts == [] then []
    else if IsLayout(ts[0]) then DropLayout(ts[1..])
    else [ts[0]] + DropLayout(ts[1..])
  }

  /** Dropping layout commutes with concatenation, so it keeps the relative order
      of the tokens it keeps: together with the one-token cases this pins it down. */
  lemma {:induction false} DropLayoutAppend(a: seq<Token>, b: seq<Token>)
    ensures DropLayout(a + b) == DropLayout(a) + DropLayout(b)
    decreases |a|
  {
    if a == [] {
      assert a + b == b;
    } else {
      assert (a + b)[1..] == a[1..] + b;
      DropLayoutAppend(a[1..], b);
    }
  }

  /** A stream without layout tokens passes unchanged, and dropping twice is dropping once. */
  lemma {:induction false} DropLayoutIdentity(ts: seq<Token>)
    ensures (forall i :: 0 <= i < |ts| ==> !IsLayout(ts[i])) ==> DropLayout(ts) == ts
    ensures DropLayout(DropLayout(ts)) == DropLayout(ts)
    decreases |ts|
  {
    if ts != [] {
      DropLayoutIdentity(ts[1..]);
      if !IsLayout(ts[0]) {
        var kept := [ts[0]] + DropLayout(ts[1..]);
        assert kept[0] == ts[0] && kept[1..] == DropLayout(ts[1..]);
      }
    }
  }

  /** The end marker `parse` appends: an EOF token whose payload is "$". */
  const EndMarker: Token := Token(Eof, "$")

  /** The input buffer: the caller's tokens without layout tokens, followed by
      exactly one end marker. */
  function PrepareInput(ts: seq<Token>): (buf: seq<Token>)
    ensures |buf| >= 1 && buf[|buf| - 1] == EndMarker
    ensures forall i :: 0 <= i < |buf| ==> (buf[i].kind == Eof <==> i == |buf| - 1)
    ensures forall i :: 0 <= i < |buf| - 1 ==> buf[i].kind != Newline && buf[i] in ts
    ensures forall t :: t in ts && !IsLayout(t) ==> t in buf
    ensures TerminalOf(buf[|buf| - 1]) == EndTerminal
  {
    DropLayout(ts) + [EndMarker]
  }
}

=== FILE: Wrappers.dfy ===
/** A minimal optional value, used where the source looks a key up and may find nothing. */
module Wrappers {

  datatype Option<+T> = None | Some(value: T)
}
